=== FILE: README.md ===
# Sclib pet keys and command system, modelled in Dafny

Sclib is a Bukkit plugin library. Almost all of it is glue to the game server. This project models its four pieces of self-contained logic:

- **Command routing** (`PCommand`, module `Commands`, `commands.dfy`). A command line's first argument is lower-cased, or becomes `"default"` when there is none. It is resolved in three stages, and the first match in declaration order wins within each stage:
  1. functions annotated `@CommandArgument`;
  2. functions annotated `@Command`, by their own name or alias, or by a nested argument;
  3. a fallback `"default"` handler.

  An admin gate and then a permission gate guard the first two stages. The module also covers tab completion, the `Arguments` accessor, and the blank-name check when a command object is constructed.
- **Registration ledger** (`SimpleCommandRegistrar`, module `Registrar`, `registrar.dfy`). An explicit state record holds the pending queue, the set of registered names, `lastRegisteredCount` and `alreadyWarnedReload`. `RegisterAll` is its flush transition. The host's command map is a set of names, and registering a command or alias adds exactly that name.
- **Pet key merge** (`AbstractPetKeyManager`, module `PetKeys`, `petkeys.dfy`). The built-in entries are followed by the readable user entries from `pets-data.yml` whose (namespace, key) is new. The file is an input: `None` when it is missing, otherwise the list of mappings under `pets`. The default file written on first run is an output.
- **Pet catalogue** (`DefaultPetNode` and `DefaultPetKeyManager`, module `PetNodes`, `petnodes.dfy`). Fifteen pets in five volumes. Each pet's id gives its item key, namespace and permission. The module also holds the two lookups and the built-in registry entries.

Helper modules:
- `Wrappers` (`wrappers.dfy`): `Option` and `Result`.
- `Text` (`text.dfy`): ASCII lower-casing, comparison and prefix tests ignoring case, and Kotlin's `isBlank`.
- `Seqs` (`seqs.dfy`): first-match search, i.e. `firstOrNull` and `find`.

Modelling choices:
- A handler is a `Handler` record. It has an optional `@CommandArgument` descriptor and an optional `@Command` descriptor, so a function may carry either, both or neither. It also has the value that calling it returns this time: `Some(b)` for a Boolean, `None` for anything else.
- The sender has three fields: `isPlayer`, `isOp`, and the set of permission nodes it holds.
- Routing answers with an `Outcome`: `Invoked(i)`, `DeniedAdmin`, `DeniedPermission` or `Unknown`. It comes together with the Boolean that `onCommand` returns.

Two behaviours of the code worth noting:
- Routing's second stage matches `@Command` annotations on *functions*. The class-level `@Command` is used only to build the host command and queue it (`Commands.Construct`). Its nested arguments play no part in routing.
- The fallback `"default"` handler is invoked with no admin or permission check. A bare command line is different: `"default"` is then the sub-token itself, so the first or second stage finds the handler and checks it. `Commands.FallbackBypassesAuthorization` shows both paths on one admin-only handler.

## Model

| member | source | states |
|---|---|---|
| `Commands.Arguments.Get` | src/main/kotlin/kr/sobin/pp/api/PCommand.kt:20-24 | an argument is present exactly for indices in range; a null array has size zero and no arguments; present arguments agree with `asList` |
| `Commands.Authorize` | src/main/kotlin/kr/sobin/pp/api/PCommand.kt:78-85 | the admin gate comes first and refuses anyone but a player who is an operator; then a non-blank permission the sender lacks refuses; a blank permission never refuses |
| `Commands.CommandRequirement` | src/main/kotlin/kr/sobin/pp/api/PCommand.kt:102-113 | the first nested argument that answers to the sub-token supplies the permission and admin flag; when none answers, the function's own apply |
| `Commands.SubToken` | src/main/kotlin/kr/sobin/pp/api/PCommand.kt:65-66 | with no first argument the sub-token is `"default"`; otherwise it is the first argument lower-cased, of the same length |
| `Commands.OnCommand` | src/main/kotlin/kr/sobin/pp/api/PCommand.kt:59-148 | only a handler that answers to the sub-token, or a fallback `"default"` handler, is ever invoked; its Boolean reply is returned and a non-Boolean reply becomes false; denials and unknown commands return true |
| `Commands.ArgumentStageWins` | src/main/kotlin/kr/sobin/pp/api/PCommand.kt:66-87 | the first `@CommandArgument` handler answering the lower-cased first argument decides the outcome under its own requirements, ahead of every `@Command` handler |
| `Commands.CommandStageNested` | src/main/kotlin/kr/sobin/pp/api/PCommand.kt:89-124 | in the `@Command` stage, the first nested argument that answers supplies the permission and admin flag, replacing the function's own |
| `Commands.CommandStageOwn` | src/main/kotlin/kr/sobin/pp/api/PCommand.kt:102-124 | a `@Command` function matched by its own name or alias, with no nested argument answering, is checked against its own permission and admin flag |
| `Commands.NestedBlankPermissionOverrides` | src/main/kotlin/kr/sobin/pp/api/PCommand.kt:106-122 | a matching nested argument with a blank permission and no admin flag lets every sender through, even when the function requires a permission |
| `Commands.NestedPermissionDenies` | src/main/kotlin/kr/sobin/pp/api/PCommand.kt:106-122 | `/pet give` by a player lacking the nested permission `mcpets.give` is refused with the permission denial, returns true and invokes nothing |
| `Commands.FallbackUnchecked` | src/main/kotlin/kr/sobin/pp/api/PCommand.kt:127-147 | when nothing answers the sub-token, the first `@CommandArgument` `"default"` handler, else the first `@Command` one, is invoked with no gate; with neither the command is unknown and true is returned |
| `Commands.FallbackRoute` | src/main/kotlin/kr/sobin/pp/api/PCommand.kt:127-147 | when no handler answers to the sub-token, the fallback handler is invoked with no gate, and with no fallback the command is unknown and true is returned |
| `Commands.FallbackBypassesAuthorization` | src/main/kotlin/kr/sobin/pp/api/PCommand.kt:128-145 | an admin-only `"default"` handler refuses a non-operator on a bare command line but runs for the same sender on an unknown subcommand |
| `Commands.BareCommandRunsDefault` | src/main/kotlin/kr/sobin/pp/api/PCommand.kt:66-87 | example: `/pet` with no arguments invokes an ungated `@CommandArgument("default")` handler |
| `Commands.RoutingIgnoresCase` | src/main/kotlin/kr/sobin/pp/api/PCommand.kt:66-72 | first arguments equal ignoring case are routed identically, whatever follows them |
| `Commands.NullArgumentsAreEmpty` | src/main/kotlin/kr/sobin/pp/api/PCommand.kt:65-66 | a null argument array is routed exactly like an empty one |
| `Commands.ArgumentTokens` | src/main/kotlin/kr/sobin/pp/api/PCommand.kt:157-162 | a token is collected exactly when it is the value or an alias of some handler's `@CommandArgument`; a single handler contributes its value followed by its aliases |
| `Commands.NestedTokens` | src/main/kotlin/kr/sobin/pp/api/PCommand.kt:170-173 | a token is collected exactly when it is the value or an alias of one of the nested arguments; a single nested argument contributes its value followed by its aliases |
| `Commands.CommandTokens` | src/main/kotlin/kr/sobin/pp/api/PCommand.kt:163-175 | a token is collected exactly when it belongs to some handler's `@Command`: its value, an alias, or a nested argument's token; a single handler contributes its value, its aliases, then its nested arguments' tokens |
| `Commands.NestedTokensAppend` | src/main/kotlin/kr/sobin/pp/api/PCommand.kt:170-173 | the tokens of nested arguments declared as `a` then `b` are `a`'s tokens followed by `b`'s |
| `Commands.CommandTokensAppend` | src/main/kotlin/kr/sobin/pp/api/PCommand.kt:163-175 | the `@Command` tokens of handlers declared as `a` then `b` are `a`'s tokens followed by `b`'s |
| `Commands.ArgumentTokensAppend` | src/main/kotlin/kr/sobin/pp/api/PCommand.kt:157-162 | the `@CommandArgument` tokens of handlers declared as `a` then `b` are `a`'s tokens followed by `b`'s |
| `Commands.WithoutDefault` | src/main/kotlin/kr/sobin/pp/api/PCommand.kt:176 | exactly the tokens other than the literal `"default"` remain, and none is added |
| `Commands.StartingWith` | src/main/kotlin/kr/sobin/pp/api/PCommand.kt:178 | exactly the tokens starting with the typed text ignoring case remain, and none is added |
| `Commands.OnTabComplete` | src/main/kotlin/kr/sobin/pp/api/PCommand.kt:150-179 | no suggestions unless exactly one argument is typed; then a token is suggested exactly when some annotation declares it, it is not `"default"`, and it starts with the typed text ignoring case |
| `Commands.ArgumentSuggestionsFirst` | src/main/kotlin/kr/sobin/pp/api/PCommand.kt:157-178 | the suggestions are the filtered `@CommandArgument` tokens followed by the filtered `@Command` tokens |
| `Commands.SuggestionsFollowDeclarationOrder` | src/main/kotlin/kr/sobin/pp/api/PCommand.kt:157-178 | for handlers declared as `a` then `b`, the suggestions are `a`'s argument tokens, `b`'s argument tokens, `a`'s command tokens, then `b`'s command tokens, each filtered: within each group, declaration order is kept |
| `Commands.CompletionExample` | src/main/kotlin/kr/sobin/pp/api/PCommand.kt:176-178 | typing `gi` against `give`, `remove` and `default` suggests `give` alone |
| `Commands.Construct` | src/main/kotlin/kr/sobin/pp/api/PCommand.kt:32-56 | a class without `@Command` queues nothing; a blank name fails; otherwise exactly one entry with the class's name, permission, admin flag and aliases is queued, and nothing is registered, counted or warned |
| `Commands.DefaultHandler` | src/main/kotlin/kr/sobin/pp/api/PCommand.kt:128-142 | the fallback is the first handler whose `@CommandArgument` answers to `"default"`; failing that, the first whose `@Command` does; with neither there is none |
| `Seqs.FirstWhere` | src/main/kotlin/kr/sobin/pp/api/PCommand.kt:69-74 | the result is the first element satisfying the property, and it is absent exactly when no element does |
| `Registrar.QueueForRegistration` | src/main/kotlin/kr/sobin/pp/api/cmap/SimpleCommandRegistrar.kt:110-112 | the command is appended to the queue, the earlier entries are kept, and nothing is registered or counted |
| `Registrar.TryRegister` | src/main/kotlin/kr/sobin/pp/api/cmap/SimpleCommandRegistrar.kt:58-64 | a name is installed exactly when it is absent from both the registered set and the host map; it then joins both; afterwards it is taken either way |
| `Registrar.RegisterAliases` | src/main/kotlin/kr/sobin/pp/api/cmap/SimpleCommandRegistrar.kt:67-77 | each alias passes the same guard; only aliases are installed, each once; afterwards every alias is taken |
| `Registrar.RegisterPending` | src/main/kotlin/kr/sobin/pp/api/cmap/SimpleCommandRegistrar.kt:56-78 | only queued names and aliases are installed, none twice and none already taken, and every one of them is taken afterwards |
| `Registrar.RegisterAll` | src/main/kotlin/kr/sobin/pp/api/cmap/SimpleCommandRegistrar.kt:48-84 | the queue is emptied even if everything was skipped; the registered set and host grow by exactly the installed names; the count rises by the number of installations; the reload warning is issued exactly when the count was positive and no warning had been given |
| `Registrar.InitialConsistent` | src/main/kotlin/kr/sobin/pp/api/cmap/SimpleCommandRegistrar.kt:21-25 | the process starts with a ledger whose count equals the number of registered names, all of them in the host |
| `Registrar.RegisterAllConsistent` | src/main/kotlin/kr/sobin/pp/api/cmap/SimpleCommandRegistrar.kt:54-79 | a flush keeps every registered name in the host and keeps `lastRegisteredCount` equal to the number of registered names |
| `Registrar.QueueKeepsConsistent` | src/main/kotlin/kr/sobin/pp/api/cmap/SimpleCommandRegistrar.kt:110-112 | queuing a command keeps every registered name in the host and the count equal to the number of registered names |
| `Registrar.ReplayKeepsConsistent` | src/main/kotlin/kr/sobin/pp/api/cmap/SimpleCommandRegistrar.kt:48-112 | from a consistent ledger, any sequence of queue and flush calls leaves the ledger consistent with the host |
| `Registrar.RegisteredOnlyGrows` | src/main/kotlin/kr/sobin/pp/api/cmap/SimpleCommandRegistrar.kt:58-77 | neither queuing nor flushing removes a registered name or a host name |
| `Registrar.FlushOfTakenNamesIsNoop` | src/main/kotlin/kr/sobin/pp/api/cmap/SimpleCommandRegistrar.kt:58-77 | when every queued name and alias is already taken, a flush installs nothing and changes neither set |
| `Registrar.FlushTwiceInstallsOnce` | src/main/kotlin/kr/sobin/pp/api/cmap/SimpleCommandRegistrar.kt:56-83 | re-queuing the same commands and flushing again installs nothing, leaving the registered set and host as the first flush left them |
| `Registrar.WarnsAtMostOnce` | src/main/kotlin/kr/sobin/pp/api/cmap/SimpleCommandRegistrar.kt:49-52 | over any sequence of queue and flush calls, the reload warning is logged at most once, and never once it has been logged |
| `PetKeys.ParseEntry` | src/main/kotlin/kr/sobin/pp/api/AbstractPetKeyManager.kt:36-38 | a user entry is readable exactly when it has both `namespace` and `key`; it is read with those values and its `permission`, or an empty permission when that is missing |
| `PetKeys.ReadEntries` | src/main/kotlin/kr/sobin/pp/api/AbstractPetKeyManager.kt:35-38 | the readable entries are no more than the file's entries, every readable entry of the file is among them, and a single entry reads as itself when readable and as nothing otherwise |
| `PetKeys.ReadEntriesAppend` | src/main/kotlin/kr/sobin/pp/api/AbstractPetKeyManager.kt:35-38 | reading keeps file order: the entries read from `a` followed by `b` are those read from `a` followed by those read from `b` |
| `PetKeys.ReadEntriesOnlyReadable` | src/main/kotlin/kr/sobin/pp/api/AbstractPetKeyManager.kt:35-38 | nothing is read but the readable entries of the file |
| `PetKeys.DefaultConfig` | src/main/kotlin/kr/sobin/pp/api/AbstractPetKeyManager.kt:53-64 | the default file has one mapping per built-in entry, each with exactly the keys `namespace`, `key` and `permission`, and each mapping reads back as that entry |
| `PetKeys.MergeEntry` | src/main/kotlin/kr/sobin/pp/api/AbstractPetKeyManager.kt:36-42 | one user entry is appended, or nothing is; an appended entry is that entry read with an empty default permission, and its namespace and key were not present; afterwards a readable entry's namespace and key are present |
| `PetKeys.MergeUserEntries` | src/main/kotlin/kr/sobin/pp/api/AbstractPetKeyManager.kt:35-43 | the result is the existing entries followed by the reference selection: the readable user entries in file order, each kept exactly when no entry before it, existing or kept, has its namespace and key; every appended entry collides with nothing before it, and every readable entry's namespace and key end up present |
| `PetKeys.LoadPetKeys` | src/main/kotlin/kr/sobin/pp/api/AbstractPetKeyManager.kt:26-48 | the built-in entries form a prefix in their order; a missing file leaves exactly the built-ins and writes the default file; an existing file is not written, and the list is the built-ins followed by the file's readable entries with a new namespace and key, first one wins, in file order |
| `PetKeys.FreshKeepsFirst` | src/main/kotlin/kr/sobin/pp/api/AbstractPetKeyManager.kt:40-42 | a readable entry whose namespace and key neither the earlier list nor an earlier readable entry has is kept, whatever later entries with that pair say |
| `PetKeys.FirstUserEntryWins` | src/main/kotlin/kr/sobin/pp/api/AbstractPetKeyManager.kt:35-43 | the first readable user entry for a namespace and key no built-in has is loaded as it stands, with its own permission |
| `PetKeys.LoadKeepsKeysDistinct` | src/main/kotlin/kr/sobin/pp/api/AbstractPetKeyManager.kt:40-42 | with pairwise distinct built-ins, the loaded list has no two entries sharing a namespace and key |
| `PetKeys.BuiltInWinsOverUser` | src/main/kotlin/kr/sobin/pp/api/AbstractPetKeyManager.kt:28-42 | with pairwise distinct built-ins, the only entry with a built-in's namespace and key is the built-in itself; a user entry for that pair, whatever its permission, is dropped |
| `PetKeys.UnreadableEntriesSkipped` | src/main/kotlin/kr/sobin/pp/api/AbstractPetKeyManager.kt:36-37 | user entries lacking `namespace` or `key` add nothing |
| `PetKeys.KnownEntriesSkipped` | src/main/kotlin/kr/sobin/pp/api/AbstractPetKeyManager.kt:40-42 | user entries whose namespace and key are already present add nothing, whatever their permission |
| `PetKeys.DefaultFileRoundTrip` | src/main/kotlin/kr/sobin/pp/api/AbstractPetKeyManager.kt:44-64 | the file written on first run, loaded on the next run, gives back exactly the built-in list |
| `PetKeys.LoadTwice` | src/main/kotlin/kr/sobin/pp/api/AbstractPetKeyManager.kt:27 | the list is cleared first, so loading again on the same inputs gives the same list |
| `PetNodes.Ordinal` | src/main/kotlin/kr/sobin/pp/api/DefaultPetNode.kt:10-34 | every node sits in the entry list at its ordinal |
| `PetNodes.CatalogueShape` | src/main/kotlin/kr/sobin/pp/api/DefaultPetNode.kt:10-34 | exactly 15 nodes, all listed, distinct, with distinct ids, three per volume, volumes 1 to 5 in order |
| `PetNodes.MetaOf` | src/main/kotlin/kr/sobin/pp/api/DefaultPetNode.kt:41-94 | every branch of `meta` agrees with one rule: namespace `am_fantasypets_vol` plus the volume digit; item key `am_icon_pet_` plus the id, or `am_icon_` plus the id in volume 5; permission `mcpets.am_pet_` plus the id |
| `PetNodes.Namespaced` | src/main/kotlin/kr/sobin/pp/api/DefaultPetNode.kt:99 | a node's item identifier is the namespace and item key the shared rule gives for its volume and id |
| `PetNodes.HasPermissionNode` | src/main/kotlin/kr/sobin/pp/api/DefaultPetNode.kt:104-105 | a node accepts a permission node exactly when it equals `mcpets.am_pet_` plus the node's id, ignoring case |
| `PetNodes.MetaExamples` | src/main/kotlin/kr/sobin/pp/api/DefaultPetNode.kt:44-90 | kitsune gives `am_fantasypets_vol1:am_icon_pet_kitsune` with `mcpets.am_pet_kitsune`; beepu gives `am_fantasypets_vol5:am_icon_beepu` with `mcpets.am_pet_beepu` |
| `PetNodes.PermissionsDistinctIgnoringCase` | src/main/kotlin/kr/sobin/pp/api/DefaultPetNode.kt:41-94 | no two nodes have permissions equal ignoring case |
| `PetNodes.FromPermission` | src/main/kotlin/kr/sobin/pp/api/DefaultPetNode.kt:111-112 | a node found has a permission equal to the input ignoring case; nothing is found exactly when no node's permission matches |
| `PetNodes.FromPermissionExact` | src/main/kotlin/kr/sobin/pp/api/DefaultPetNode.kt:104-112 | `fromPermission(s)` is node `n` exactly when `n.hasPermissionNode(s)` |
| `PetNodes.FromPermissionRoundTrip` | src/main/kotlin/kr/sobin/pp/api/DefaultPetNode.kt:111-112 | looking up a node's own permission finds that node |
| `PetNodes.FromItemKey` | src/main/kotlin/kr/sobin/pp/api/DefaultPetNode.kt:117-118 | a node found has exactly the given namespace and key; nothing is found exactly when no node has them |
| `PetNodes.ItemKeysDistinct` | src/main/kotlin/kr/sobin/pp/api/DefaultPetNode.kt:41-94 | no two nodes share an item identifier |
| `PetNodes.FromItemKeyExact` | src/main/kotlin/kr/sobin/pp/api/DefaultPetNode.kt:99-118 | `fromItemKey(k)` is node `n` exactly when `n.namespaced() == k`, so `fromItemKey(n.namespaced()) == n` |
| `PetNodes.DefaultPetKeys` | src/main/kotlin/kr/sobin/pp/api/DefaultPetKeyManager.kt:9-16 | one entry per node in enum order, whose key, namespace and permission are those the shared rule gives for the node's volume and id |
| `PetNodes.DefaultPetKeysShape` | src/main/kotlin/kr/sobin/pp/api/DefaultPetKeyManager.kt:9-16 | 15 entries: the first 12 keyed `am_icon_pet_<id>`, the last 3 `am_icon_<id>`, namespaces by volume, permissions `mcpets.am_pet_<id>`, no two sharing a namespace and key |
| `PetNodes.DefaultRegistryDistinct` | src/main/kotlin/kr/sobin/pp/api/AbstractPetKeyManager.kt:26-48 | whatever the configuration file holds, the registry built on the catalogue has one entry per namespace and key |

## Left out

- Reflection: the server's command map is found by reflection, and the class's declared functions are listed by reflection. The model takes an explicit handler sequence, in whatever order reflection lists the functions, and an abstract set of host names.
- The host `Command` objects: the anonymous command built in `init` and `AliasCommandWrapper` only forward calls to the router or to the original command. An alias registration is represented by its name. The host's permission field and permission message are not modelled.
- Host behaviour when registering: the host may itself install a command's aliases or prefixed labels. The model assumes registration adds exactly the registered name.
- Messages and logging: chat messages, colours and the log lines of `registerAll` are not modelled. They appear as `Outcome` constructors, the `warned` flag, and the list of installed names from which the info log is built.
- The plugin namespace passed to `register` is not modelled, because it does not affect which names are installed.
- YAML parsing and writing and the file system are not modelled. The file is an input value and the written default file is an output value. Non-string YAML values, which the source converts with `toString()`, are modelled as strings already. A key present with a null value is skipped like a missing `namespace` or `key`, or read as `""` for `permission`; a `map<string, string>` can express that only as an absent key.
- `PetKeyData.toNamespacedKey` and Bukkit's character validation of namespaced keys are not modelled. A key is a (namespace, key) pair.
- Case folding is ASCII only. Kotlin's `lowercase()` and `equals(ignoreCase = true)` fold all of Unicode; the model folds `A`-`Z` only.
- The lazy caching of `meta` is not modelled. `MetaOf` is a pure function over the `when` branches (`MetaBranches`), which computes the same value.
- The arguments passed to a handler (sender, command, label, `Arguments`) are not modelled, because the call itself is opaque. Its reply is part of the handler descriptor.
- Exceptions from a handler call are not modelled. Reflection's `call` throws when the function's parameters do not fit or it is not accessible, and an exception inside the handler propagates out of `onCommand`. The model assumes every call returns a value, recorded in `Handler.reply`.
- PetKeys.GetAllPetKeys: `getAllPetKeys` is the identity on values. Its defensive copy of the list has no counterpart in an immutable model, so its contract states nothing beyond equality with the registry.

=== FILE: commands.dfy ===
/**
 * The annotation-driven command system of `PCommand`: resolving the first
 * argument of a command line to a handler, the admin and permission gates,
 * tab completion, and the construction step that queues the command with
 * the registration ledger.
 *
 * Reflection over a class's declared functions is replaced by an explicit
 * sequence of handler descriptors, in the order reflection lists them. A
 * handler's call is opaque: its descriptor carries what the call returns.
 */
module Commands {
  import opened Wrappers
  import opened Text
  import opened Seqs
  import Registrar

  /** `@CommandArgument`: a subcommand token, its aliases, and its requirements (defaults: no aliases, no permission, not admin). */
  datatype ArgumentSpec = ArgumentSpec(value: string, alias: seq<string>, permission: string, isAdmin: bool)

  /** `@Command`: a command name, its requirements, aliases and nested subcommand descriptors. */
  datatype CommandSpec = CommandSpec(
    value: string,
    permission: string,
    isAdmin: bool,
    alias: seq<string>,
    arguments: seq<ArgumentSpec>)

  /**
   * One declared function: the annotations it carries (either, both or
   * neither) and what calling it returns this time, `Some(b)` for a Boolean
   * and `None` for any other value.
   */
  datatype Handler = Handler(argument: Option<ArgumentSpec>, command: Option<CommandSpec>, reply: Option<bool>)

  /** The command sender: whether it is a player, whether it is an operator, and the permission nodes it holds. */
  datatype Sender = Sender(isPlayer: bool, isOp: bool, permissions: set<string>)

  /** Only a player who is an operator passes the admin gate. */
  predicate IsOperator(s: Sender) {
    s.isPlayer && s.isOp
  }

  predicate HasPermission(s: Sender, node: string) {
    node in s.permissions
  }

  /** `Arguments`: the raw argument array, which may be null. */
  datatype Arguments = Arguments(args: Option<seq<string>>) {

    /** `size`: zero for a null array. */
    function Size(): nat {
      match args
      case None => 0
      case Some(a) => |a|
    }

    /** `asList`: the arguments, empty for a null array. */
    function AsList(): (r: seq<string>)
      ensures |r| == Size()
    {
      args.GetOr([])
    }

    /** `get`: the argument at `index`, absent for a null array or an index out of range. */
    function Get(index: int): (r: Option<string>)
      ensures r.Some? <==> 0 <= index < Size()
      ensures r.Some? ==> r.value == AsList()[index]
    {
      match args
      case Some(a) => if 0 <= index < |a| then Some(a[index]) else None
      case None => None
    }
  }

  /** The token that selects the fallback handler, and the one tab completion never offers. */
  const DefaultToken: string := "default"

  /** The lower-cased first argument, or `"default"` when there is none. */
  function SubToken(args: Arguments): (r: string)
    ensures args.Size() == 0 ==> r == DefaultToken
    ensures args.Size() > 0 ==> r == Lower(args.AsList()[0]) && |r| == |args.AsList()[0]|
  {
    match args.Get(0)
    case Some(a) => Lower(a)
    case None => DefaultToken
  }

  /** Some alias lower-cases to `sub`. */
  predicate AnyAliasAnswers(alias: seq<string>, sub: string)
    decreases |alias|
  {
    |alias| > 0 && (Lower(alias[0]) == sub || AnyAliasAnswers(alias[1..], sub))
  }

  /** A token with its aliases answers to `sub` when one of them lower-cases to it. */
  predicate Answers(value: string, alias: seq<string>, sub: string) {
    Lower(value) == sub || AnyAliasAnswers(alias, sub)
  }

  predicate ArgumentAnswers(a: ArgumentSpec, sub: string) {
    Answers(a.value, a.alias, sub)
  }

  /** Some nested argument answers to `sub`. */
  predicate AnyArgumentAnswers(arguments: seq<ArgumentSpec>, sub: string)
    decreases |arguments|
  {
    |arguments| > 0 && (ArgumentAnswers(arguments[0], sub) || AnyArgumentAnswers(arguments[1..], sub))
  }

  /** A `@Command` answers by its own name or aliases, or through any nested argument. */
  predicate CommandAnswers(c: CommandSpec, sub: string) {
    Answers(c.value, c.alias, sub) || AnyArgumentAnswers(c.arguments, sub)
  }

  /** A handler of the first stage: annotated with a `@CommandArgument` that answers to `sub`. */
  predicate IsArgumentHandler(h: Handler, sub: string) {
    h.argument.Some? && ArgumentAnswers(h.argument.value, sub)
  }

  /** A handler of the second stage: annotated with a `@Command` that answers to `sub`. */
  predicate IsCommandHandler(h: Handler, sub: string) {
    h.command.Some? && CommandAnswers(h.command.value, sub)
  }

  /** What the router did with a command line. */
  datatype Outcome = Invoked(index: nat) | DeniedAdmin | DeniedPermission | Unknown

  /** The outcome together with the value `onCommand` returns to the host. */
  datatype Response = Response(outcome: Outcome, handled: bool)

  /** The value `onCommand` returns for a reply: the Boolean itself, and false for any other value. */
  function Coerce(reply: Option<bool>): bool {
    reply.GetOr(false)
  }

  /** The two gates, admin first; `None` lets the sender through. */
  function Authorize(sender: Sender, permission: string, isAdmin: bool): (denial: Option<Outcome>)
    ensures denial == Some(DeniedAdmin) <==> isAdmin && !IsOperator(sender)
    ensures denial == Some(DeniedPermission) <==>
      (!isAdmin || IsOperator(sender)) && !IsBlank(permission) && !HasPermission(sender, permission)
    ensures denial.None? || denial == Some(DeniedAdmin) || denial == Some(DeniedPermission)
  {
    if isAdmin && !IsOperator(sender) then Some(DeniedAdmin)
    else if !IsBlank(permission) && !HasPermission(sender, permission) then Some(DeniedPermission)
    else None
  }

  function Invoke(hs: seq<Handler>, i: nat): Response
    requires i < |hs|
  {
    Response(Invoked(i), Coerce(hs[i].reply))
  }

  /** Check the requirements, then invoke handler `i`; a denial is reported as handled. */
  function Gate(hs: seq<Handler>, i: nat, sender: Sender, permission: string, isAdmin: bool): Response
    requires i < |hs|
  {
    match Authorize(sender, permission, isAdmin)
    case Some(denial) => Response(denial, true)
    case None => Invoke(hs, i)
  }

  /** The requirements the second stage checks: a nested argument that answers to `sub` replaces the function's own. */
  function CommandRequirement(c: CommandSpec, sub: string): (r: (string, bool))
    ensures forall j: nat :: FirstNestedArgument(c, sub, j) ==> r == (c.arguments[j].permission, c.arguments[j].isAdmin)
    ensures (forall k :: 0 <= k < |c.arguments| ==> !ArgumentAnswers(c.arguments[k], sub)) ==> r == (c.permission, c.isAdmin)
  {
    match FirstWhere(c.arguments, a => ArgumentAnswers(a, sub))
    case Some(j) => (c.arguments[j].permission, c.arguments[j].isAdmin)
    case None => (c.permission, c.isAdmin)
  }

  /** The fallback: the first `@CommandArgument` handler for `"default"`, else the first `@Command` handler for it. */
  function DefaultHandler(hs: seq<Handler>): (r: Option<nat>)
    ensures r.Some? ==> r.value < |hs|
    ensures forall i: nat :: FirstArgumentHandler(hs, DefaultToken, i) ==> r == Some(i)
    ensures forall i: nat ::
      (forall k :: 0 <= k < |hs| ==> !IsArgumentHandler(hs[k], DefaultToken)) && FirstCommandHandler(hs, DefaultToken, i) ==>
      r == Some(i)
    ensures (forall k :: 0 <= k < |hs| ==> !IsArgumentHandler(hs[k], DefaultToken) && !IsCommandHandler(hs[k], DefaultToken)) ==>
      r.None?
  {
    match FirstWhere(hs, h => IsArgumentHandler(h, DefaultToken))
    case Some(i) => Some(i)
    case None => FirstWhere(hs, h => IsCommandHandler(h, DefaultToken))
  }

  /**
   * `onCommand`. A handler is invoked only if it answers to the sub-token or
   * is a fallback handler; its Boolean reply, or false, is returned. Every
   * other outcome returns true.
   */
  function OnCommand(hs: seq<Handler>, sender: Sender, args: Arguments): (r: Response)
    ensures r.outcome.Invoked? ==> r.outcome.index < |hs| && r.handled == Coerce(hs[r.outcome.index].reply)
    ensures r.outcome.Invoked? ==>
      var h := hs[r.outcome.index];
      || IsArgumentHandler(h, SubToken(args)) || IsCommandHandler(h, SubToken(args))
      || IsArgumentHandler(h, DefaultToken) || IsCommandHandler(h, DefaultToken)
    ensures !r.outcome.Invoked? ==> r.handled
  {
    var sub := SubToken(args);
    match FirstWhere(hs, h => IsArgumentHandler(h, sub))
    case Some(i) =>
      var a := hs[i].argument.value;
      Gate(hs, i, sender, a.permission, a.isAdmin)
    case None =>
      match FirstWhere(hs, h => IsCommandHandler(h, sub))
      case Some(i) =>
        var (permission, isAdmin) := CommandRequirement(hs[i].command.value, sub);
        Gate(hs, i, sender, permission, isAdmin)
      case None =>
        match DefaultHandler(hs)
        case Some(i) =>
          assert IsArgumentHandler(hs[i], DefaultToken) || IsCommandHandler(hs[i], DefaultToken);
          Invoke(hs, i)
        case None => Response(Unknown, true)
  }

  /** `i` is the first handler in declaration order with property `IsArgumentHandler(_, sub)`. */
  ghost predicate FirstArgumentHandler(hs: seq<Handler>, sub: string, i: nat) {
    i < |hs| && IsArgumentHandler(hs[i], sub) && forall j :: 0 <= j < i ==> !IsArgumentHandler(hs[j], sub)
  }

  ghost predicate FirstCommandHandler(hs: seq<Handler>, sub: string, i: nat) {
    i < |hs| && IsCommandHandler(hs[i], sub) && forall j :: 0 <= j < i ==> !IsCommandHandler(hs[j], sub)
  }

  ghost predicate FirstNestedArgument(c: CommandSpec, sub: string, j: nat) {
    j < |c.arguments| && ArgumentAnswers(c.arguments[j], sub)
    && forall k :: 0 <= k < j ==> !ArgumentAnswers(c.arguments[k], sub)
  }

  /** First stage: the first `@CommandArgument` handler that answers wins, under its own requirements. */
  lemma ArgumentStageWins(hs: seq<Handler>, sender: Sender, args: Arguments, i: nat)
    requires FirstArgumentHandler(hs, SubToken(args), i)
    ensures OnCommand(hs, sender, args)
         == Gate(hs, i, sender, hs[i].argument.value.permission, hs[i].argument.value.isAdmin)
  {
  }

  /** Second stage, through a nested argument: its permission and admin flag replace the function's own. */
  lemma CommandStageNested(hs: seq<Handler>, sender: Sender, args: Arguments, i: nat, j: nat)
    requires forall k :: 0 <= k < |hs| ==> !IsArgumentHandler(hs[k], SubToken(args))
    requires FirstCommandHandler(hs, SubToken(args), i)
    requires FirstNestedArgument(hs[i].command.value, SubToken(args), j)
    ensures var a := hs[i].command.value.arguments[j];
            OnCommand(hs, sender, args) == Gate(hs, i, sender, a.permission, a.isAdmin)
  {
    CommandStageSelected(hs, SubToken(args), i);
  }

  /** The second stage selects handler `i` when no first-stage handler answers. */
  lemma CommandStageSelected(hs: seq<Handler>, sub: string, i: nat)
    requires forall k :: 0 <= k < |hs| ==> !IsArgumentHandler(hs[k], sub)
    requires FirstCommandHandler(hs, sub, i)
    ensures FirstWhere(hs, h => IsArgumentHandler(h, sub)).None?
    ensures FirstWhere(hs, h => IsCommandHandler(h, sub)) == Some(i)
  {
    assert IsCommandHandler(hs[i], sub);
  }

  /** Second stage, by the function's own name or alias with no nested argument answering: its own requirements apply. */
  lemma CommandStageOwn(hs: seq<Handler>, sender: Sender, args: Arguments, i: nat)
    requires forall k :: 0 <= k < |hs| ==> !IsArgumentHandler(hs[k], SubToken(args))
    requires FirstCommandHandler(hs, SubToken(args), i)
    requires forall k :: 0 <= k < |hs[i].command.value.arguments| ==>
      !ArgumentAnswers(hs[i].command.value.arguments[k], SubToken(args))
    ensures var c := hs[i].command.value;
            OnCommand(hs, sender, args) == Gate(hs, i, sender, c.permission, c.isAdmin)
  {
  }

  /** A nested argument with a blank permission and no admin flag lets everyone through, whatever the function requires. */
  lemma NestedBlankPermissionOverrides(hs: seq<Handler>, sender: Sender, args: Arguments, i: nat, j: nat)
    requires forall k :: 0 <= k < |hs| ==> !IsArgumentHandler(hs[k], SubToken(args))
    requires FirstCommandHandler(hs, SubToken(args), i)
    requires FirstNestedArgument(hs[i].command.value, SubToken(args), j)
    requires IsBlank(hs[i].command.value.arguments[j].permission)
    requires !hs[i].command.value.arguments[j].isAdmin
    ensures OnCommand(hs, sender, args) == Response(Invoked(i), Coerce(hs[i].reply))
  {
    CommandStageNested(hs, sender, args, i, j);
  }

  /** When nothing answers, the fallback handler is invoked with no admin or permission check; without one the command is unknown. */
  lemma FallbackUnchecked(hs: seq<Handler>, sender: Sender, args: Arguments)
    requires forall k :: 0 <= k < |hs| ==> !IsArgumentHandler(hs[k], SubToken(args))
    requires forall k :: 0 <= k < |hs| ==> !IsCommandHandler(hs[k], SubToken(args))
    ensures forall i: nat :: FirstArgumentHandler(hs, DefaultToken, i) ==>
      OnCommand(hs, sender, args) == Response(Invoked(i), Coerce(hs[i].reply))
    ensures forall i: nat ::
      (forall k :: 0 <= k < |hs| ==> !IsArgumentHandler(hs[k], DefaultToken)) && FirstCommandHandler(hs, DefaultToken, i) ==>
      OnCommand(hs, sender, args) == Response(Invoked(i), Coerce(hs[i].reply))
    ensures (forall k :: 0 <= k < |hs| ==> !IsArgumentHandler(hs[k], DefaultToken) && !IsCommandHandler(hs[k], DefaultToken)) ==>
      OnCommand(hs, sender, args) == Response(Unknown, true)
  {
    FallbackRoute(hs, sender, args);
  }

  /** When nothing answers, routing falls through to the fallback handler, ungated. */
  lemma FallbackRoute(hs: seq<Handler>, sender: Sender, args: Arguments)
    requires forall k :: 0 <= k < |hs| ==> !IsArgumentHandler(hs[k], SubToken(args))
    requires forall k :: 0 <= k < |hs| ==> !IsCommandHandler(hs[k], SubToken(args))
    ensures DefaultHandler(hs).Some? ==> OnCommand(hs, sender, args) == Invoke(hs, DefaultHandler(hs).value)
    ensures DefaultHandler(hs).None? ==> OnCommand(hs, sender, args) == Response(Unknown, true)
  {
  }

  /** Only the lower-cased first argument matters: arguments equal ignoring case are routed alike. */
  lemma RoutingIgnoresCase(hs: seq<Handler>, sender: Sender, a: string, b: string, restA: seq<string>, restB: seq<string>)
    requires EqualsIgnoreCase(a, b)
    ensures OnCommand(hs, sender, Arguments(Some([a] + restA)))
         == OnCommand(hs, sender, Arguments(Some([b] + restB)))
  {
  }

  /** A null argument array is routed like an empty one, as the `"default"` token. */
  lemma NullArgumentsAreEmpty(hs: seq<Handler>, sender: Sender)
    ensures OnCommand(hs, sender, Arguments(None)) == OnCommand(hs, sender, Arguments(Some([])))
  {
  }

  /**
   * An admin-only `"default"` handler is guarded when the command is typed
   * bare, since `"default"` is then the sub-token, but not when an unknown
   * subcommand reaches it as the fallback.
   */
  lemma FallbackBypassesAuthorization()
    ensures var hs := [Handler(Some(ArgumentSpec("default", [], "pets.admin", true)), None, Some(true))];
            var console := Sender(false, false, {});
            && OnCommand(hs, console, Arguments(Some([]))) == Response(DeniedAdmin, true)
            && OnCommand(hs, console, Arguments(Some(["xyz"]))) == Response(Invoked(0), true)
  {
    var hs := [Handler(Some(ArgumentSpec("default", [], "pets.admin", true)), None, Some(true))];
    var console := Sender(false, false, {});
    LowerOfDefault();
    assert FirstArgumentHandler(hs, DefaultToken, 0);
    ArgumentStageWins(hs, console, Arguments(Some([])), 0);
    var args := Arguments(Some(["xyz"]));
    assert |SubToken(args)| == 3;
    assert !IsArgumentHandler(hs[0], SubToken(args)) && !IsCommandHandler(hs[0], SubToken(args));
    FallbackUnchecked(hs, console, args);
  }

  /** `/pet give` by a player without `mcpets.give` is refused and invokes nothing. */
  lemma NestedPermissionDenies()
    ensures var give := ArgumentSpec("give", [], "mcpets.give", false);
            var hs := [Handler(None, Some(CommandSpec("pet", "", false, [], [give])), Some(true))];
            OnCommand(hs, Sender(true, false, {}), Arguments(Some(["give"]))) == Response(DeniedPermission, true)
  {
    var give := ArgumentSpec("give", [], "mcpets.give", false);
    var hs := [Handler(None, Some(CommandSpec("pet", "", false, [], [give])), Some(true))];
    var args := Arguments(Some(["give"]));
    assert SubToken(args) == Lower("give");
    assert ArgumentAnswers(give, SubToken(args));
    assert hs[0].command.value.arguments[0] == give;
    assert IsCommandHandler(hs[0], SubToken(args));
    assert !IsWhitespace("mcpets.give"[0]);
    CommandStageNested(hs, Sender(true, false, {}), args, 0, 0);
  }

  /** `/pet` with no arguments reaches the `"default"` handler. */
  lemma BareCommandRunsDefault()
    ensures var hs := [Handler(Some(ArgumentSpec("default", [], "", false)), None, Some(true))];
            OnCommand(hs, Sender(true, false, {}), Arguments(Some([]))) == Response(Invoked(0), true)
  {
  }

  /** The default token is already in lower case. */
  lemma LowerOfDefault()
    ensures Lower(DefaultToken) == DefaultToken
  {
  }

  // ---------------------------------------------------------------------
  // Tab completion

  /** The tokens one `@CommandArgument` contributes: its value, then its aliases. */
  function ArgumentSpecTokens(a: ArgumentSpec): seq<string> {
    [a.value] + a.alias
  }

  /** The tokens of the nested arguments, in order. */
  function NestedTokens(args: seq<ArgumentSpec>): (r: seq<string>)
    ensures forall t :: t in r <==> exists j :: 0 <= j < |args| && t in ArgumentSpecTokens(args[j])
    ensures |args| == 1 ==> r == ArgumentSpecTokens(args[0])
    decreases |args|
  {
    if |args| == 0 then []
    else
      var rest := NestedTokens(args[1..]);
      assert forall j :: 0 < j < |args| ==> args[j] == args[1..][j - 1];
      ArgumentSpecTokens(args[0]) + rest
  }

  /** The tokens one `@Command` contributes: its value, its aliases, then each nested argument's. */
  function CommandSpecTokens(c: CommandSpec): seq<string> {
    [c.value] + c.alias + NestedTokens(c.arguments)
  }

  /** Tokens of every `@CommandArgument` handler, in declaration order. */
  function ArgumentTokens(hs: seq<Handler>): (r: seq<string>)
    ensures forall t :: t in r <==>
      exists i :: 0 <= i < |hs| && hs[i].argument.Some? && t in ArgumentSpecTokens(hs[i].argument.value)
    ensures |hs| == 1 ==> r == if hs[0].argument.Some? then ArgumentSpecTokens(hs[0].argument.value) else []
    decreases |hs|
  {
    if |hs| == 0 then []
    else
      var rest := ArgumentTokens(hs[1..]);
      assert forall i :: 0 < i < |hs| ==> hs[i] == hs[1..][i - 1];
      match hs[0].argument
      case Some(a) => ArgumentSpecTokens(a) + rest
      case None => rest
  }

  /** Tokens of every `@Command` handler, in declaration order. */
  function CommandTokens(hs: seq<Handler>): (r: seq<string>)
    ensures forall t :: t in r <==>
      exists i :: 0 <= i < |hs| && hs[i].command.Some? && t in CommandSpecTokens(hs[i].command.value)
    ensures |hs| == 1 ==> r == if hs[0].command.Some? then CommandSpecTokens(hs[0].command.value) else []
    decreases |hs|
  {
    if |hs| == 0 then []
    else
      var rest := CommandTokens(hs[1..]);
      assert forall i :: 0 < i < |hs| ==> hs[i] == hs[1..][i - 1];
      match hs[0].command
      case Some(c) => CommandSpecTokens(c) + rest
      case None => rest
  }

  /** Drops every token that is exactly `"default"` (case matters here), keeping order. */
  function WithoutDefault(tokens: seq<string>): (r: seq<string>)
    ensures forall t :: t in r <==> t in tokens && t != DefaultToken
    ensures |r| <= |tokens|
    decreases |tokens|
  {
    if |tokens| == 0 then []
    else
      var rest := WithoutDefault(tokens[1..]);
      if tokens[0] == DefaultToken then rest else [tokens[0]] + rest
  }

  /** Keeps the tokens that start with `prefix` ignoring case, in order. */
  function StartingWith(tokens: seq<string>, prefix: string): (r: seq<string>)
    ensures forall t :: t in r <==> t in tokens && StartsWithIgnoreCase(t, prefix)
    ensures |r| <= |tokens|
    decreases |tokens|
  {
    if |tokens| == 0 then []
    else
      var rest := StartingWith(tokens[1..], prefix);
      if StartsWithIgnoreCase(tokens[0], prefix) then [tokens[0]] + rest else rest
  }

  /**
   * `onTabComplete`: nothing unless exactly one argument is typed; then every
   * known token other than `"default"` that starts with it ignoring case.
   */
  function OnTabComplete(hs: seq<Handler>, args: Arguments): (r: seq<string>)
    ensures args.Size() != 1 ==> r == []
    ensures args.Size() == 1 ==> forall t :: t in r <==>
      && (t in ArgumentTokens(hs) || t in CommandTokens(hs))
      && t != DefaultToken
      && StartsWithIgnoreCase(t, args.AsList()[0])
  {
    var result := WithoutDefault(ArgumentTokens(hs) + CommandTokens(hs));
    if args.Size() != 1 then [] else StartingWith(result, args.AsList()[0])
  }

  lemma {:induction false} WithoutDefaultAppend(a: seq<string>, b: seq<string>)
    ensures WithoutDefault(a + b) == WithoutDefault(a) + WithoutDefault(b)
    decreases |a|
  {
    if |a| == 0 {
      assert a + b == b;
    } else {
      assert (a + b)[0] == a[0];
      assert (a + b)[1..] == a[1..] + b;
      WithoutDefaultAppend(a[1..], b);
    }
  }

  lemma {:induction false} StartingWithAppend(a: seq<string>, b: seq<string>, prefix: string)
    ensures StartingWith(a + b, prefix) == StartingWith(a, prefix) + StartingWith(b, prefix)
    decreases |a|
  {
    if |a| == 0 {
      assert a + b == b;
    } else {
      assert (a + b)[0] == a[0];
      assert (a + b)[1..] == a[1..] + b;
      StartingWithAppend(a[1..], b, prefix);
    }
  }

  /** Nested tokens follow the order of the nested arguments. */
  lemma {:induction false} NestedTokensAppend(a: seq<ArgumentSpec>, b: seq<ArgumentSpec>)
    ensures NestedTokens(a + b) == NestedTokens(a) + NestedTokens(b)
    decreases |a|
  {
    if |a| == 0 {
      assert a + b == b;
    } else {
      assert (a + b)[0] == a[0];
      assert (a + b)[1..] == a[1..] + b;
      NestedTokensAppend(a[1..], b);
    }
  }

  /** `@CommandArgument` tokens follow the declaration order of the handlers. */
  lemma {:induction false} ArgumentTokensAppend(a: seq<Handler>, b: seq<Handler>)
    ensures ArgumentTokens(a + b) == ArgumentTokens(a) + ArgumentTokens(b)
    decreases |a|
  {
    if |a| == 0 {
      assert a + b == b;
    } else {
      assert (a + b)[0] == a[0];
      assert (a + b)[1..] == a[1..] + b;
      ArgumentTokensAppend(a[1..], b);
    }
  }

  /** `@Command` tokens follow the declaration order of the handlers. */
  lemma {:induction false} CommandTokensAppend(a: seq<Handler>, b: seq<Handler>)
    ensures CommandTokens(a + b) == CommandTokens(a) + CommandTokens(b)
    decreases |a|
  {
    if |a| == 0 {
      assert a + b == b;
    } else {
      assert (a + b)[0] == a[0];
      assert (a + b)[1..] == a[1..] + b;
      CommandTokensAppend(a[1..], b);
    }
  }

  /** The suggestions from `@CommandArgument` handlers come first, then those from `@Command` handlers. */
  lemma ArgumentSuggestionsFirst(hs: seq<Handler>, typed: string)
    ensures OnTabComplete(hs, Arguments(Some([typed])))
         == StartingWith(WithoutDefault(ArgumentTokens(hs)), typed)
          + StartingWith(WithoutDefault(CommandTokens(hs)), typed)
  {
    WithoutDefaultAppend(ArgumentTokens(hs), CommandTokens(hs));
    StartingWithAppend(WithoutDefault(ArgumentTokens(hs)), WithoutDefault(CommandTokens(hs)), typed);
  }

  /**
   * With the handlers declared as `a` followed by `b`, the suggestions are
   * `a`'s argument tokens, `b`'s argument tokens, `a`'s command tokens, then
   * `b`'s command tokens: each group keeps declaration order.
   */
  lemma SuggestionsFollowDeclarationOrder(a: seq<Handler>, b: seq<Handler>, typed: string)
    ensures OnTabComplete(a + b, Arguments(Some([typed])))
         == StartingWith(WithoutDefault(ArgumentTokens(a)), typed)
          + StartingWith(WithoutDefault(ArgumentTokens(b)), typed)
          + StartingWith(WithoutDefault(CommandTokens(a)), typed)
          + StartingWith(WithoutDefault(CommandTokens(b)), typed)
  {
    ArgumentSuggestionsFirst(a + b, typed);
    ArgumentTokensAppend(a, b);
    CommandTokensAppend(a, b);
    WithoutDefaultAppend(ArgumentTokens(a), ArgumentTokens(b));
    WithoutDefaultAppend(CommandTokens(a), CommandTokens(b));
    StartingWithAppend(WithoutDefault(ArgumentTokens(a)), WithoutDefault(ArgumentTokens(b)), typed);
    StartingWithAppend(WithoutDefault(CommandTokens(a)), WithoutDefault(CommandTokens(b)), typed);
  }

  /** Typing `gi` against the subcommands `give`, `remove` and `default` suggests `give` alone. */
  lemma CompletionExample()
    ensures var hs := [
              Handler(Some(ArgumentSpec("give", [], "", false)), None, Some(true)),
              Handler(Some(ArgumentSpec("remove", [], "", false)), None, Some(true)),
              Handler(Some(ArgumentSpec("default", [], "", false)), None, Some(true))];
            OnTabComplete(hs, Arguments(Some(["gi"]))) == ["give"]
  {
    var hs := [
      Handler(Some(ArgumentSpec("give", [], "", false)), None, Some(true)),
      Handler(Some(ArgumentSpec("remove", [], "", false)), None, Some(true)),
      Handler(Some(ArgumentSpec("default", [], "", false)), None, Some(true))];
    assert ArgumentTokens(hs[2..]) == ["default"];
    assert ArgumentTokens(hs[1..]) == ["remove", "default"];
    assert ArgumentTokens(hs) == ["give", "remove", "default"];
    assert CommandTokens(hs[2..]) == [];
    assert CommandTokens(hs[1..]) == [];
    assert CommandTokens(hs) == [];
    assert ["give", "remove", "default"] + [] == ["give", "remove", "default"];
    var kept := WithoutDefault(["give", "remove", "default"]);
    assert WithoutDefault(["default"]) == [];
    assert ["give", "remove", "default"][1..] == ["remove", "default"];
    assert ["remove", "default"][1..] == ["default"];
    assert kept == ["give", "remove"];
    assert "give"[..2] == "gi";
    assert StartsWithIgnoreCase("give", "gi");
    LowerAt("re", 0);
    LowerAt("gi", 0);
    assert "remove"[..2] == "re";
    assert !StartsWithIgnoreCase("remove", "gi");
    assert ["give", "remove"][1..] == ["remove"];
    assert StartingWith(["remove"], "gi") == [];
  }

  // ---------------------------------------------------------------------
  // Construction

  /** Why constructing a command object fails. */
  datatype InitError = BlankCommandName

  /**
   * `init`: a class without `@Command` queues nothing; a blank name is
   * rejected; otherwise exactly one entry is queued with the ledger, and
   * nothing is registered yet.
   */
  function Construct(classAnnotation: Option<CommandSpec>, ledger: Registrar.Registrar): (r: Result<Registrar.Registrar, InitError>)
    ensures classAnnotation.None? ==> r == Success(ledger)
    ensures classAnnotation.Some? && IsBlank(classAnnotation.value.value) ==> r == Failure(BlankCommandName)
    ensures classAnnotation.Some? && !IsBlank(classAnnotation.value.value) ==>
      var c := classAnnotation.value;
      && r.Success?
      && r.value.pending == ledger.pending + [Registrar.PendingCmd(c.value, c.permission, c.isAdmin, c.alias)]
      && r.value.registered == ledger.registered
      && r.value.lastRegisteredCount == ledger.lastRegisteredCount
      && r.value.alreadyWarnedReload == ledger.alreadyWarnedReload
  {
    match classAnnotation
    case None => Success(ledger)
    case Some(c) =>
      if IsBlank(c.value) then Failure(BlankCommandName)
      else Success(Registrar.QueueForRegistration(ledger, c.value, c.permission, c.isAdmin, c.alias))
  }
}

=== FILE: petkeys.dfy ===
/**
 * The pet key registry of `AbstractPetKeyManager`: the built-in entries
 * merged with the user's entries from `pets-data.yml`.
 *
 * The file is an input value: `None` when it does not exist, otherwise the
 * list of mappings under `pets`. Writing the default file is an output.
 */
module PetKeys {
  import opened Wrappers

  /** `PetKeyData`: an item key, its namespace, and the permission that unlocks it. */
  datatype PetKeyData = PetKeyData(key: string, namespace: string, permission: string)

  /** One mapping under `pets` in the configuration file. */
  type ConfigEntry = map<string, string>

  /** The registry's state: the merged entry list. */
  datatype PetKeyManager = PetKeyManager(petKeys: seq<PetKeyData>)

  /** A load's new state, and the default file it wrote when there was none. */
  datatype LoadResult = LoadResult(manager: PetKeyManager, written: Option<seq<ConfigEntry>>)

  /** Entries are identified by namespace and key; the permission plays no part. */
  predicate SameKey(a: PetKeyData, b: PetKeyData) {
    a.key == b.key && a.namespace == b.namespace
  }

  /** Some entry of `s` has the namespace and key of `d`. */
  predicate HasKey(s: seq<PetKeyData>, d: PetKeyData) {
    exists i :: 0 <= i < |s| && SameKey(s[i], d)
  }

  /** No two entries of `s` share a namespace and key. */
  ghost predicate DistinctKeys(s: seq<PetKeyData>) {
    forall i, j :: 0 <= i < j < |s| ==> !SameKey(s[i], s[j])
  }

  /** Reads one user entry: `namespace` and `key` are required, a missing `permission` reads as empty. */
  function ParseEntry(e: ConfigEntry): (r: Option<PetKeyData>)
    ensures r.Some? <==> "namespace" in e && "key" in e
    ensures r.Some? ==> r.value.key == e["key"] && r.value.namespace == e["namespace"]
    ensures r.Some? && "permission" in e ==> r.value.permission == e["permission"]
    ensures r.Some? && "permission" !in e ==> r.value.permission == ""
  {
    if "namespace" !in e then None
    else if "key" !in e then None
    else Some(PetKeyData(e["key"], e["namespace"], if "permission" in e then e["permission"] else ""))
  }

  /** The readable user entries, in file order. */
  function ReadEntries(entries: seq<ConfigEntry>): (r: seq<PetKeyData>)
    ensures |r| <= |entries|
    ensures forall i :: 0 <= i < |entries| && ParseEntry(entries[i]).Some? ==> ParseEntry(entries[i]).value in r
    ensures |entries| == 1 ==> r == if ParseEntry(entries[0]).Some? then [ParseEntry(entries[0]).value] else []
    decreases |entries|
  {
    if |entries| == 0 then []
    else
      match ParseEntry(entries[0])
      case Some(d) => [d] + ReadEntries(entries[1..])
      case None => ReadEntries(entries[1..])
  }

  /** Reading keeps file order: the entries of `a` followed by those of `b`. */
  lemma {:induction false} ReadEntriesAppend(a: seq<ConfigEntry>, b: seq<ConfigEntry>)
    ensures ReadEntries(a + b) == ReadEntries(a) + ReadEntries(b)
    decreases |a|
  {
    if |a| == 0 {
      assert a + b == b;
    } else {
      assert (a + b)[0] == a[0];
      assert (a + b)[1..] == a[1..] + b;
      ReadEntriesAppend(a[1..], b);
    }
  }

  /** Nothing but the file's readable entries is read. */
  lemma {:induction false} ReadEntriesOnlyReadable(entries: seq<ConfigEntry>, d: PetKeyData)
    requires d in ReadEntries(entries)
    ensures exists i :: 0 <= i < |entries| && ParseEntry(entries[i]) == Some(d)
    decreases |entries|
  {
    if ParseEntry(entries[0]) != Some(d) {
      ReadEntriesOnlyReadable(entries[1..], d);
      var i :| 0 <= i < |entries[1..]| && ParseEntry(entries[1..][i]) == Some(d);
      assert ParseEntry(entries[i + 1]) == Some(d);
    }
  }

  /** The mapping `saveDefaultConfig` writes for one entry. */
  function ToEntry(d: PetKeyData): ConfigEntry {
    map["namespace" := d.namespace, "key" := d.key, "permission" := d.permission]
  }

  /** `saveDefaultConfig`: one mapping per built-in entry, each reading back as that entry. */
  function DefaultConfig(defaults: seq<PetKeyData>): (c: seq<ConfigEntry>)
    ensures |c| == |defaults|
    ensures forall i :: 0 <= i < |c| ==> ParseEntry(c[i]) == Some(defaults[i])
    ensures forall i :: 0 <= i < |c| ==> c[i].Keys == {"namespace", "key", "permission"}
  {
    seq(|defaults|, i requires 0 <= i < |defaults| => ToEntry(defaults[i]))
  }

  /** One iteration of the loop: append the entry when it is readable and its namespace and key are new. */
  function MergeEntry(keys: seq<PetKeyData>, e: ConfigEntry): (next: seq<PetKeyData>)
    ensures |keys| <= |next| <= |keys| + 1 && next[..|keys|] == keys
    ensures |next| == |keys| + 1 ==> ParseEntry(e) == Some(next[|keys|]) && !HasKey(keys, next[|keys|])
    ensures ParseEntry(e).Some? ==> HasKey(next, ParseEntry(e).value)
  {
    match ParseEntry(e)
    case None => keys
    case Some(d) =>
      if HasKey(keys, d) then keys
      else
        assert SameKey((keys + [d])[|keys|], d);
        keys + [d]
  }

  /**
   * The reference for the merge: walking the readable entries `ds` in order,
   * an entry is kept exactly when neither `seen` nor an entry kept before it
   * has its namespace and key.
   */
  function Fresh(seen: seq<PetKeyData>, ds: seq<PetKeyData>): seq<PetKeyData>
    decreases |ds|
  {
    if |ds| == 0 then []
    else if HasKey(seen, ds[0]) then Fresh(seen, ds[1..])
    else [ds[0]] + Fresh(seen + [ds[0]], ds[1..])
  }

  /**
   * The loop over the user entries: an entry is appended when it is readable
   * and no entry before it, built-in or user, has its namespace and key.
   */
  function MergeUserEntries(keys: seq<PetKeyData>, entries: seq<ConfigEntry>): (r: seq<PetKeyData>)
    ensures |keys| <= |r| && r[..|keys|] == keys
    ensures forall i :: |keys| <= i < |r| ==> r[i] in ReadEntries(entries)
    ensures forall i, j :: 0 <= j < i < |r| && |keys| <= i ==> !SameKey(r[j], r[i])
    ensures forall d :: d in ReadEntries(entries) ==> HasKey(r, d)
    ensures r == keys + Fresh(keys, ReadEntries(entries))
    decreases |entries|
  {
    if |entries| == 0 then keys
    else
      var next := MergeEntry(keys, entries[0]);
      var r := MergeUserEntries(next, entries[1..]);
      MergeStep(keys, entries, next, r);
      MergeStepReference(keys, entries, next);
      r
  }

  /** One iteration of the loop agrees with one step of the reference. */
  lemma MergeStepReference(keys: seq<PetKeyData>, entries: seq<ConfigEntry>, next: seq<PetKeyData>)
    requires |entries| > 0 && next == MergeEntry(keys, entries[0])
    ensures keys + Fresh(keys, ReadEntries(entries)) == next + Fresh(next, ReadEntries(entries[1..]))
  {
    var rest := ReadEntries(entries[1..]);
    match ParseEntry(entries[0])
    case None =>
      assert ReadEntries(entries) == rest;
    case Some(d) =>
      assert ReadEntries(entries) == [d] + rest;
      assert ([d] + rest)[1..] == rest;
      if !HasKey(keys, d) {
        assert next == keys + [d];
        assert keys + ([d] + Fresh(keys + [d], rest)) == (keys + [d]) + Fresh(keys + [d], rest);
      }
  }

  /** Combines one iteration with the rest of the loop. */
  lemma MergeStep(keys: seq<PetKeyData>, entries: seq<ConfigEntry>, next: seq<PetKeyData>, r: seq<PetKeyData>)
    requires |entries| > 0
    requires |keys| <= |next| <= |keys| + 1 && next[..|keys|] == keys
    requires |next| == |keys| + 1 ==> ParseEntry(entries[0]) == Some(next[|keys|]) && !HasKey(keys, next[|keys|])
    requires ParseEntry(entries[0]).Some? ==> HasKey(next, ParseEntry(entries[0]).value)
    requires |next| <= |r| && r[..|next|] == next
    requires forall i :: |next| <= i < |r| ==> r[i] in ReadEntries(entries[1..])
    requires forall i, j :: 0 <= j < i < |r| && |next| <= i ==> !SameKey(r[j], r[i])
    requires forall d :: d in ReadEntries(entries[1..]) ==> HasKey(r, d)
    ensures |keys| <= |r| && r[..|keys|] == keys
    ensures forall i :: |keys| <= i < |r| ==> r[i] in ReadEntries(entries)
    ensures forall i, j :: 0 <= j < i < |r| && |keys| <= i ==> !SameKey(r[j], r[i])
    ensures forall d :: d in ReadEntries(entries) ==> HasKey(r, d)
  {
    assert r[..|keys|] == next[..|keys|];
    ReadEntriesCons(entries);
    MergeStepOrigin(keys, entries, next, r);
    MergeStepFresh(keys, next, r);
    MergeStepCover(entries, next, r);
  }

  /** Membership in the readable entries, one entry at a time. */
  lemma ReadEntriesCons(entries: seq<ConfigEntry>)
    requires |entries| > 0
    ensures forall d :: d in ReadEntries(entries) <==> ParseEntry(entries[0]) == Some(d) || d in ReadEntries(entries[1..])
  {
  }

  lemma MergeStepOrigin(keys: seq<PetKeyData>, entries: seq<ConfigEntry>, next: seq<PetKeyData>, r: seq<PetKeyData>)
    requires |entries| > 0
    requires |keys| <= |next| <= |keys| + 1
    requires |next| == |keys| + 1 ==> ParseEntry(entries[0]) == Some(next[|keys|])
    requires |next| <= |r| && r[..|next|] == next
    requires forall i :: |next| <= i < |r| ==> r[i] in ReadEntries(entries[1..])
    requires forall d :: d in ReadEntries(entries) <==> ParseEntry(entries[0]) == Some(d) || d in ReadEntries(entries[1..])
    ensures forall i :: |keys| <= i < |r| ==> r[i] in ReadEntries(entries)
  {
    forall i | |keys| <= i < |r|
      ensures r[i] in ReadEntries(entries)
    {
      if i < |next| {
        assert i == |keys|;
        assert r[i] == next[i];
        assert ParseEntry(entries[0]) == Some(r[i]);
      } else {
        assert r[i] in ReadEntries(entries[1..]);
      }
    }
  }

  lemma MergeStepFresh(keys: seq<PetKeyData>, next: seq<PetKeyData>, r: seq<PetKeyData>)
    requires |keys| <= |next| <= |keys| + 1 && next[..|keys|] == keys
    requires |next| == |keys| + 1 ==> !HasKey(keys, next[|keys|])
    requires |next| <= |r| && r[..|next|] == next
    requires forall i, j :: 0 <= j < i < |r| && |next| <= i ==> !SameKey(r[j], r[i])
    ensures forall i, j :: 0 <= j < i < |r| && |keys| <= i ==> !SameKey(r[j], r[i])
  {
    forall i, j | 0 <= j < i < |r| && |keys| <= i
      ensures !SameKey(r[j], r[i])
    {
      if i < |next| {
        assert r[i] == next[i] && r[j] == next[j] && next[j] == keys[j];
      }
    }
  }

  lemma MergeStepCover(entries: seq<ConfigEntry>, next: seq<PetKeyData>, r: seq<PetKeyData>)
    requires |entries| > 0
    requires ParseEntry(entries[0]).Some? ==> HasKey(next, ParseEntry(entries[0]).value)
    requires |next| <= |r| && r[..|next|] == next
    requires forall d :: d in ReadEntries(entries[1..]) ==> HasKey(r, d)
    requires forall d :: d in ReadEntries(entries) <==> ParseEntry(entries[0]) == Some(d) || d in ReadEntries(entries[1..])
    ensures forall d :: d in ReadEntries(entries) ==> HasKey(r, d)
  {
    forall d | d in ReadEntries(entries)
      ensures HasKey(r, d)
    {
      if ParseEntry(entries[0]) == Some(d) {
        var k :| 0 <= k < |next| && SameKey(next[k], d);
        assert r[k] == next[k];
      }
    }
  }

  /** `loadPetKeys`: clear, add the built-in entries, then merge the file's entries or write the default file. */
  function LoadPetKeys(m: PetKeyManager, defaults: seq<PetKeyData>, config: Option<seq<ConfigEntry>>): (r: LoadResult)
    ensures |defaults| <= |r.manager.petKeys| && r.manager.petKeys[..|defaults|] == defaults
    ensures config.None? ==> r.manager.petKeys == defaults && r.written == Some(DefaultConfig(defaults))
    ensures config.Some? ==> r.written == None
    ensures config.Some? ==> r.manager.petKeys == defaults + Fresh(defaults, ReadEntries(config.value))
    ensures config.Some? ==> forall i :: |defaults| <= i < |r.manager.petKeys| ==> r.manager.petKeys[i] in ReadEntries(config.value)
    ensures config.Some? ==> forall i, j :: 0 <= j < i < |r.manager.petKeys| && |defaults| <= i ==> !SameKey(r.manager.petKeys[j], r.manager.petKeys[i])
    ensures config.Some? ==> forall d :: d in ReadEntries(config.value) ==> HasKey(r.manager.petKeys, d)
  {
    match config
    case None => LoadResult(PetKeyManager(defaults), Some(DefaultConfig(defaults)))
    case Some(entries) => LoadResult(PetKeyManager(MergeUserEntries(defaults, entries)), None)
  }

  /** The reference keeps the first entry for each new namespace and key, whatever later entries with the same pair say. */
  lemma {:induction false} FreshKeepsFirst(seen: seq<PetKeyData>, ds: seq<PetKeyData>, k: nat)
    requires k < |ds| && !HasKey(seen, ds[k])
    requires forall j :: 0 <= j < k ==> !SameKey(ds[j], ds[k])
    ensures ds[k] in Fresh(seen, ds)
    decreases |ds|
  {
    if k > 0 {
      assert ds[1..][k - 1] == ds[k];
      if HasKey(seen, ds[0]) {
        FreshKeepsFirst(seen, ds[1..], k - 1);
      } else {
        assert !HasKey(seen + [ds[0]], ds[k]) by {
          assert !SameKey(ds[0], ds[k]);
          forall i | 0 <= i < |seen| + 1
            ensures !SameKey((seen + [ds[0]])[i], ds[k])
          {
            if i < |seen| {
              assert (seen + [ds[0]])[i] == seen[i];
            }
          }
        }
        FreshKeepsFirst(seen + [ds[0]], ds[1..], k - 1);
      }
    }
  }

  /**
   * The first readable user entry for a namespace and key that no built-in
   * has is the one loaded, with its own permission.
   */
  lemma FirstUserEntryWins(m: PetKeyManager, defaults: seq<PetKeyData>, entries: seq<ConfigEntry>, k: nat)
    requires k < |ReadEntries(entries)| && !HasKey(defaults, ReadEntries(entries)[k])
    requires forall j :: 0 <= j < k ==> !SameKey(ReadEntries(entries)[j], ReadEntries(entries)[k])
    ensures ReadEntries(entries)[k] in LoadPetKeys(m, defaults, Some(entries)).manager.petKeys
  {
    FreshKeepsFirst(defaults, ReadEntries(entries), k);
  }

  /** `getAllPetKeys`: a snapshot of the entry list, equal to it element by element. */
  function GetAllPetKeys(m: PetKeyManager): (r: seq<PetKeyData>)
    ensures |r| == |m.petKeys|
    ensures forall i :: 0 <= i < |r| ==> r[i] == m.petKeys[i]
  {
    m.petKeys
  }

  /** A user entry never creates a second entry for a namespace and key; with distinct built-ins the whole list is distinct. */
  lemma LoadKeepsKeysDistinct(m: PetKeyManager, defaults: seq<PetKeyData>, config: Option<seq<ConfigEntry>>)
    requires DistinctKeys(defaults)
    ensures DistinctKeys(LoadPetKeys(m, defaults, config).manager.petKeys)
  {
    var r := LoadPetKeys(m, defaults, config).manager.petKeys;
    forall i, j | 0 <= i < j < |r|
      ensures !SameKey(r[i], r[j])
    {
      if j < |defaults| {
        assert r[i] == defaults[i] && r[j] == defaults[j];
      }
    }
  }

  /** A user entry with a built-in's namespace and key is dropped: the built-in is the only entry for that pair. */
  lemma BuiltInWinsOverUser(m: PetKeyManager, defaults: seq<PetKeyData>, entries: seq<ConfigEntry>, k: nat)
    requires DistinctKeys(defaults)
    requires k < |defaults|
    ensures var r := LoadPetKeys(m, defaults, Some(entries)).manager.petKeys;
            forall i :: 0 <= i < |r| && SameKey(r[i], defaults[k]) ==> r[i] == defaults[k]
  {
    var r := LoadPetKeys(m, defaults, Some(entries)).manager.petKeys;
    LoadKeepsKeysDistinct(m, defaults, Some(entries));
    assert r[k] == defaults[k];
    forall i | 0 <= i < |r| && SameKey(r[i], defaults[k])
      ensures r[i] == defaults[k]
    {
      if i != k {
        assert false;
      }
    }
  }

  /** Entries lacking `namespace` or `key` add nothing. */
  lemma {:induction false} UnreadableEntriesSkipped(keys: seq<PetKeyData>, entries: seq<ConfigEntry>)
    requires forall e :: e in entries ==> "namespace" !in e || "key" !in e
    ensures MergeUserEntries(keys, entries) == keys
    decreases |entries|
  {
    if |entries| > 0 {
      assert entries[0] in entries;
      assert forall e :: e in entries[1..] ==> e in entries;
      UnreadableEntriesSkipped(keys, entries[1..]);
    }
  }

  /** Entries whose namespace and key are already present add nothing, whatever their permission. */
  lemma {:induction false} KnownEntriesSkipped(keys: seq<PetKeyData>, entries: seq<ConfigEntry>)
    requires forall d :: d in ReadEntries(entries) ==> HasKey(keys, d)
    ensures MergeUserEntries(keys, entries) == keys
    decreases |entries|
  {
    if |entries| > 0 {
      KnownEntriesSkipped(keys, entries[1..]);
    }
  }

  /** The file written on first run reads back as exactly the built-in entries. */
  lemma DefaultFileRoundTrip(m: PetKeyManager, defaults: seq<PetKeyData>)
    ensures var first := LoadPetKeys(m, defaults, None);
            first.written.Some?
            && LoadPetKeys(first.manager, defaults, first.written).manager == first.manager
  {
    var c := DefaultConfig(defaults);
    DefaultConfigReadsBack(defaults, c);
    forall d | d in ReadEntries(c)
      ensures HasKey(defaults, d)
    {
      var i :| 0 <= i < |defaults| && defaults[i] == d;
      assert SameKey(defaults[i], d);
    }
    KnownEntriesSkipped(defaults, c);
  }

  lemma {:induction false} DefaultConfigReadsBack(defaults: seq<PetKeyData>, c: seq<ConfigEntry>)
    requires |c| == |defaults|
    requires forall i :: 0 <= i < |c| ==> ParseEntry(c[i]) == Some(defaults[i])
    ensures ReadEntries(c) == defaults
    decreases |c|
  {
    if |c| > 0 {
      DefaultConfigReadsBack(defaults[1..], c[1..]);
    }
  }

  /** Loading clears the list first, so a second load on the same inputs gives the same list. */
  lemma LoadTwice(m: PetKeyManager, defaults: seq<PetKeyData>, config: Option<seq<ConfigEntry>>)
    ensures var once := LoadPetKeys(m, defaults, config).manager;
            LoadPetKeys(once, defaults, config).manager == once
  {
  }
}

=== FILE: petnodes.dfy ===
/**
 * The built-in pet catalogue (`DefaultPetNode`) and the registry entries
 * derived from it (`DefaultPetKeyManager`).
 *
 * Fifteen pets in five volumes of three. Each pet's id gives its item key,
 * namespace and permission by string concatenation.
 */
module PetNodes {
  import opened Wrappers
  import opened Text
  import opened Seqs
  import opened PetKeys

  datatype DefaultPetNode =
    | Kitsune | Owlbear | Shadowbeak
    | Diggler | Faeli | Sniffler
    | Leafling | Quacku | Rodeer
    | Otterly | Emberna | Hamtera
    | Beepu | Gemling | Skel

  /** `entries`: every node, in declaration order. */
  const Entries: seq<DefaultPetNode> := [
    Kitsune, Owlbear, Shadowbeak,
    Diggler, Faeli, Sniffler,
    Leafling, Quacku, Rodeer,
    Otterly, Emberna, Hamtera,
    Beepu, Gemling, Skel]

  /** `ordinal`: the node's position in `Entries`. */
  function Ordinal(n: DefaultPetNode): (i: nat)
    ensures i < |Entries| && Entries[i] == n
  {
    match n
    case Kitsune => 0
    case Owlbear => 1
    case Shadowbeak => 2
    case Diggler => 3
    case Faeli => 4
    case Sniffler => 5
    case Leafling => 6
    case Quacku => 7
    case Rodeer => 8
    case Otterly => 9
    case Emberna => 10
    case Hamtera => 11
    case Beepu => 12
    case Gemling => 13
    case Skel => 14
  }

  function Id(n: DefaultPetNode): string {
    match n
    case Kitsune => "kitsune"
    case Owlbear => "owlbear"
    case Shadowbeak => "shadowbeak"
    case Diggler => "diggler"
    case Faeli => "faeli"
    case Sniffler => "sniffler"
    case Leafling => "leafling"
    case Quacku => "quacku"
    case Rodeer => "rodeer"
    case Otterly => "otterly"
    case Emberna => "emberna"
    case Hamtera => "hamtera"
    case Beepu => "beepu"
    case Gemling => "gemling"
    case Skel => "skel"
  }

  /** The volume a node belongs to, as the comments of the enum group them. */
  function Volume(n: DefaultPetNode): (v: nat)
    ensures 1 <= v <= 5
  {
    match n
    case Kitsune | Owlbear | Shadowbeak => 1
    case Diggler | Faeli | Sniffler => 2
    case Leafling | Quacku | Rodeer => 3
    case Otterly | Emberna | Hamtera => 4
    case Beepu | Gemling | Skel => 5
  }

  /** An item identifier `namespace:key`; two are equal when both parts are. */
  datatype NamespacedKey = NamespacedKey(namespace: string, key: string)

  /** `Meta`: a node's item identifier and permission node. */
  datatype Meta = Meta(itemNamespaceKey: NamespacedKey, permission: string)

  function BuildMeta(namespace: string, itemKey: string, id: string): Meta {
    Meta(NamespacedKey(namespace, itemKey), "mcpets." + ("am_pet_" + id))
  }

  /** The `when` expression behind `meta`: one branch per volume, as written in the enum. */
  function MetaBranches(n: DefaultPetNode): Meta {
    match n
    case Kitsune | Owlbear | Shadowbeak => BuildMeta("am_fantasypets_vol1", "am_icon_pet_" + Id(n), Id(n))
    case Diggler | Faeli | Sniffler => BuildMeta("am_fantasypets_vol2", "am_icon_pet_" + Id(n), Id(n))
    case Leafling | Quacku | Rodeer => BuildMeta("am_fantasypets_vol3", "am_icon_pet_" + Id(n), Id(n))
    case Otterly | Emberna | Hamtera => BuildMeta("am_fantasypets_vol4", "am_icon_pet_" + Id(n), Id(n))
    case Beepu | Gemling | Skel => BuildMeta("am_fantasypets_vol5", "am_icon_" + Id(n), Id(n))
  }

  /** `meta`, computed once and cached by the source; every branch follows the shared rule. */
  function MetaOf(n: DefaultPetNode): (r: Meta)
    ensures r == DeriveMeta(Volume(n), Id(n))
  {
    BranchesFollowDerivation(n);
    MetaBranches(n)
  }

  /** Each branch of the `when` agrees with the shared rule for its volume. */
  lemma BranchesFollowDerivation(n: DefaultPetNode)
    ensures MetaBranches(n) == DeriveMeta(Volume(n), Id(n))
  {
    var id := Id(n);
    match n
    case Kitsune | Owlbear | Shadowbeak =>
      BranchFollowsDerivation(1, "am_fantasypets_vol1", id);
    case Diggler | Faeli | Sniffler =>
      BranchFollowsDerivation(2, "am_fantasypets_vol2", id);
    case Leafling | Quacku | Rodeer =>
      BranchFollowsDerivation(3, "am_fantasypets_vol3", id);
    case Otterly | Emberna | Hamtera =>
      BranchFollowsDerivation(4, "am_fantasypets_vol4", id);
    case Beepu | Gemling | Skel =>
      BranchFollowsDerivation(5, "am_fantasypets_vol5", id);
  }

  /** One branch, for any id: the namespace literal is the volume's digit appended to the common prefix. */
  lemma BranchFollowsDerivation(volume: nat, namespace: string, id: string)
    requires 1 <= volume <= 5
    requires namespace == "am_fantasypets_vol" + [('0' as int + volume) as char]
    ensures BuildMeta(namespace, (if volume == 5 then "am_icon_" else "am_icon_pet_") + id, id) == DeriveMeta(volume, id)
  {
    assert "mcpets." + ("am_pet_" + id) == "mcpets.am_pet_" + id;
  }

  /** The one derivation rule the five branches share, parameterised by volume and id. */
  function DeriveMeta(volume: nat, id: string): Meta
    requires 1 <= volume <= 5
  {
    var digit := ('0' as int + volume) as char;
    var itemKey := if volume == 5 then "am_icon_" + id else "am_icon_pet_" + id;
    Meta(NamespacedKey("am_fantasypets_vol" + [digit], itemKey), "mcpets.am_pet_" + id)
  }

  /** `namespaced()`. */
  function Namespaced(n: DefaultPetNode): (k: NamespacedKey)
    ensures k == DeriveMeta(Volume(n), Id(n)).itemNamespaceKey
  {
    MetaOf(n).itemNamespaceKey
  }

  /** `hasPermissionNode`: the node's permission equals `node` ignoring case. */
  function HasPermissionNode(n: DefaultPetNode, node: string): (r: bool)
    ensures r <==> Lower(node) == Lower("mcpets.am_pet_" + Id(n))
  {
    EqualsIgnoreCase(MetaOf(n).permission, node)
  }

  /** `fromPermission`: the first node whose permission equals `permission` ignoring case. */
  function FromPermission(permission: string): (r: Option<DefaultPetNode>)
    ensures r.Some? ==> HasPermissionNode(r.value, permission)
    ensures r.None? <==> forall n :: !HasPermissionNode(n, permission)
  {
    var matches := n => HasPermissionNode(n, permission);
    match FirstWhere(Entries, matches)
    case Some(i) => Some(Entries[i])
    case None =>
      assert forall n :: !HasPermissionNode(n, permission) by {
        forall n ensures !HasPermissionNode(n, permission) {
          NotFound(Entries, matches, Entries[Ordinal(n)]);
        }
      }
      None
  }

  /** `fromItemKey`: the first node whose item identifier is exactly `itemKey`. */
  function FromItemKey(itemKey: NamespacedKey): (r: Option<DefaultPetNode>)
    ensures r.Some? ==> Namespaced(r.value) == itemKey
    ensures r.None? <==> forall n :: Namespaced(n) != itemKey
  {
    var matches := n => Namespaced(n) == itemKey;
    match FirstWhere(Entries, matches)
    case Some(i) => Some(Entries[i])
    case None =>
      assert forall n :: Namespaced(n) != itemKey by {
        forall n ensures Namespaced(n) != itemKey {
          NotFound(Entries, matches, Entries[Ordinal(n)]);
        }
      }
      None
  }

  /** `getDefaultPetKeys`: one registry entry per node, in enum order, copied from its meta. */
  function DefaultPetKeys(): (r: seq<PetKeyData>)
    ensures |r| == |Entries|
    ensures forall i :: 0 <= i < |r| ==>
      var derived := DeriveMeta(Volume(Entries[i]), Id(Entries[i]));
      && r[i].key == derived.itemNamespaceKey.key
      && r[i].namespace == derived.itemNamespaceKey.namespace
      && r[i].permission == derived.permission
  {
    seq(|Entries|, i requires 0 <= i < |Entries| =>
      var m := MetaOf(Entries[i]);
      PetKeyData(m.itemNamespaceKey.key, m.itemNamespaceKey.namespace, m.permission))
  }

  /** What the proofs below need of one node: its id starts with two non-capital letters, and where the id sits in the meta strings. */
  lemma NodeFacts(n: DefaultPetNode)
    ensures |Id(n)| >= 2 && !IsUpperAscii(Id(n)[0]) && !IsUpperAscii(Id(n)[1])
    ensures 1 <= Volume(n) <= 5
    ensures MetaOf(n).permission == "mcpets.am_pet_" + Id(n)
    ensures Namespaced(n).namespace == "am_fantasypets_vol" + [('0' as int + Volume(n)) as char]
    ensures Namespaced(n).key == (if Volume(n) == 5 then "am_icon_" else "am_icon_pet_") + Id(n)
  {
    match n
    case Kitsune | Owlbear | Shadowbeak =>
      assert "am_fantasypets_vol1" == "am_fantasypets_vol" + ['1'];
    case Diggler | Faeli | Sniffler =>
      assert "am_fantasypets_vol2" == "am_fantasypets_vol" + ['2'];
    case Leafling | Quacku | Rodeer =>
      assert "am_fantasypets_vol3" == "am_fantasypets_vol" + ['3'];
    case Otterly | Emberna | Hamtera =>
      assert "am_fantasypets_vol4" == "am_fantasypets_vol" + ['4'];
    case Beepu | Gemling | Skel =>
      assert "am_fantasypets_vol5" == "am_fantasypets_vol" + ['5'];
  }

  /** The first two letters of an id already tell the nodes apart. */
  lemma IdsDifferEarly(m: DefaultPetNode, n: DefaultPetNode)
    requires |Id(m)| >= 2 && |Id(n)| >= 2
    requires Id(m)[0] == Id(n)[0] && Id(m)[1] == Id(n)[1]
    ensures m == n
  {
  }

  /** Fifteen distinct nodes with distinct ids, three per volume, volumes in order. */
  lemma CatalogueShape()
    ensures |Entries| == 15
    ensures forall n :: n in Entries
    ensures forall i, j :: 0 <= i < j < |Entries| ==> Entries[i] != Entries[j]
    ensures forall m, n :: Id(m) == Id(n) ==> m == n
    ensures forall i :: 0 <= i < |Entries| ==> Volume(Entries[i]) == i / 3 + 1
  {
    forall n ensures n in Entries {
      assert Entries[Ordinal(n)] == n;
    }
    forall m, n | Id(m) == Id(n) ensures m == n {
      NodeFacts(m);
      NodeFacts(n);
      IdsDifferEarly(m, n);
    }
  }

  /** The two worked examples of the catalogue. */
  lemma MetaExamples()
    ensures MetaOf(Kitsune) == Meta(NamespacedKey("am_fantasypets_vol1", "am_icon_pet_kitsune"), "mcpets.am_pet_kitsune")
    ensures MetaOf(Beepu) == Meta(NamespacedKey("am_fantasypets_vol5", "am_icon_beepu"), "mcpets.am_pet_beepu")
  {
  }

  /** No two nodes have permissions equal ignoring case: the first two letters of the ids already differ. */
  lemma PermissionsDistinctIgnoringCase(m: DefaultPetNode, n: DefaultPetNode)
    requires EqualsIgnoreCase(MetaOf(m).permission, MetaOf(n).permission)
    ensures m == n
  {
    var pm, pn := MetaOf(m).permission, MetaOf(n).permission;
    NodeFacts(m);
    NodeFacts(n);
    assert pm[14] == Id(m)[0] && pm[15] == Id(m)[1];
    assert pn[14] == Id(n)[0] && pn[15] == Id(n)[1];
    LowerAt(pm, 14); LowerAt(pm, 15);
    LowerAt(pn, 14); LowerAt(pn, 15);
    IdsDifferEarly(m, n);
  }

  /** Each node's permission, in any letter case, finds that node and no other. */
  lemma FromPermissionExact(n: DefaultPetNode, permission: string)
    ensures FromPermission(permission) == Some(n) <==> HasPermissionNode(n, permission)
  {
    var r := FromPermission(permission);
    if HasPermissionNode(n, permission) && r != Some(n) {
      PermissionsDistinctIgnoringCase(r.value, n);
    }
  }

  /** `fromPermission(n.meta.permission) == n`. */
  lemma FromPermissionRoundTrip(n: DefaultPetNode)
    ensures FromPermission(MetaOf(n).permission) == Some(n)
  {
    FromPermissionExact(n, MetaOf(n).permission);
  }

  /** No two nodes share an item identifier. */
  lemma ItemKeysDistinct(m: DefaultPetNode, n: DefaultPetNode)
    requires Namespaced(m) == Namespaced(n)
    ensures m == n
  {
    NodeFacts(m);
    NodeFacts(n);
    var km, kn := Namespaced(m).key, Namespaced(n).key;
    assert Namespaced(m).namespace[18] == ('0' as int + Volume(m)) as char;
    assert Namespaced(n).namespace[18] == ('0' as int + Volume(n)) as char;
    assert Volume(m) == Volume(n);
    var at := if Volume(m) == 5 then 8 else 12;
    assert km[at] == Id(m)[0] && km[at + 1] == Id(m)[1];
    assert kn[at] == Id(n)[0] && kn[at + 1] == Id(n)[1];
    IdsDifferEarly(m, n);
  }

  /** An item identifier finds exactly the node it belongs to; `fromItemKey(n.namespaced()) == n`. */
  lemma FromItemKeyExact(n: DefaultPetNode, itemKey: NamespacedKey)
    ensures FromItemKey(itemKey) == Some(n) <==> Namespaced(n) == itemKey
  {
    var r := FromItemKey(itemKey);
    if Namespaced(n) == itemKey && r != Some(n) {
      ItemKeysDistinct(r.value, n);
    }
  }

  /** The built-in entries: item keys and namespaces by volume, permissions by id, and no two sharing a namespace and key. */
  lemma DefaultPetKeysShape()
    ensures |DefaultPetKeys()| == 15
    ensures forall i :: 0 <= i < 12 ==> DefaultPetKeys()[i].key == "am_icon_pet_" + Id(Entries[i])
    ensures forall i :: 12 <= i < 15 ==> DefaultPetKeys()[i].key == "am_icon_" + Id(Entries[i])
    ensures forall i :: 0 <= i < 15 ==>
      DefaultPetKeys()[i].namespace == "am_fantasypets_vol" + [('0' as int + i / 3 + 1) as char]
    ensures forall i :: 0 <= i < 15 ==> DefaultPetKeys()[i].permission == "mcpets.am_pet_" + Id(Entries[i])
    ensures DistinctKeys(DefaultPetKeys())
  {
    var r := DefaultPetKeys();
    CatalogueShape();
    assert forall i :: 0 <= i < 15 ==> MetaOf(Entries[i]) == DeriveMeta(i / 3 + 1, Id(Entries[i]));
    forall i, j | 0 <= i < j < 15
      ensures !SameKey(r[i], r[j])
    {
      if SameKey(r[i], r[j]) {
        ItemKeysDistinct(Entries[i], Entries[j]);
      }
    }
  }

  /** Whatever the configuration file holds, the loaded registry has one entry per namespace and key. */
  lemma DefaultRegistryDistinct(m: PetKeyManager, config: Option<seq<ConfigEntry>>)
    ensures DistinctKeys(LoadPetKeys(m, DefaultPetKeys(), config).manager.petKeys)
  {
    DefaultPetKeysShape();
    LoadKeepsKeysDistinct(m, DefaultPetKeys(), config);
  }
}

=== FILE: registrar.dfy ===
/**
 * The registration ledger of `SimpleCommandRegistrar`: a queue of commands
 * waiting to be installed, the set of names already installed, and the
 * bookkeeping that detects a reload.
 *
 * The host's command map is an abstract set of names; installing a command
 * or an alias adds exactly that name to it.
 */
module Registrar {

  /** One queued command; the host command object is represented by the aliases it carries. */
  datatype PendingCmd = PendingCmd(name: string, permission: string, admin: bool, aliases: seq<string>)

  /** The ledger's process-wide state. */
  datatype Registrar = Registrar(
    pending: seq<PendingCmd>,
    registered: set<string>,
    lastRegisteredCount: nat,
    alreadyWarnedReload: bool)

  /** The state at process start. */
  const Initial: Registrar := Registrar([], {}, 0, false)

  function Elements(s: seq<string>): set<string> {
    set x | x in s
  }

  ghost predicate NoDuplicates(s: seq<string>) {
    forall i, j :: 0 <= i < j < |s| ==> s[i] != s[j]
  }

  /** Every main name and alias of the queued commands. */
  function Names(pending: seq<PendingCmd>): set<string> {
    if |pending| == 0 then {}
    else {pending[0].name} + Elements(pending[0].aliases) + Names(pending[1..])
  }

  /** The ledger counts every installed name once and has installed it into the host. */
  ghost predicate Consistent(r: Registrar, host: set<string>) {
    && r.registered <= host
    && r.lastRegisteredCount == |r.registered|
  }

  /** `queueForRegistration`: appends to the queue and installs nothing. */
  function QueueForRegistration(r: Registrar, name: string, permission: string, isAdmin: bool, aliases: seq<string>): (r': Registrar)
    ensures |r'.pending| == |r.pending| + 1
    ensures r'.pending[..|r.pending|] == r.pending
    ensures r'.pending[|r.pending|] == PendingCmd(name, permission, isAdmin, aliases)
    ensures r'.registered == r.registered
    ensures r'.lastRegisteredCount == r.lastRegisteredCount
    ensures r'.alreadyWarnedReload == r.alreadyWarnedReload
  {
    r.(pending := r.pending + [PendingCmd(name, permission, isAdmin, aliases)])
  }

  /** The two name sets one flush consults and grows: the ledger's registered set and the host's command map. */
  datatype Progress = Progress(registered: set<string>, host: set<string>)

  /** The state after some guarded installations, with the names installed, in order. */
  datatype Step = Step(after: Progress, installed: seq<string>)

  /** `name` is known to the ledger or to the host, so the flush will not install it. */
  predicate Taken(p: Progress, name: string) {
    name in p.registered || name in p.host
  }

  /**
   * `p'` is `p` grown by `added`: each name in `added` was taken by neither
   * side before, appears once, and has joined both sets.
   */
  ghost predicate Grows(p: Progress, p': Progress, added: seq<string>) {
    && NoDuplicates(added)
    && (forall x :: x in added ==> !Taken(p, x))
    && p'.registered == p.registered + Elements(added)
    && p'.host == p.host + Elements(added)
  }

  lemma GrowsTransitive(a: Progress, b: Progress, c: Progress, s1: seq<string>, s2: seq<string>)
    requires Grows(a, b, s1) && Grows(b, c, s2)
    ensures Grows(a, c, s1 + s2)
  {
    assert Elements(s1 + s2) == Elements(s1) + Elements(s2);
    forall i, j | 0 <= i < j < |s1 + s2|
      ensures (s1 + s2)[i] != (s1 + s2)[j]
    {
      if i < |s1| && |s1| <= j {
        assert s1[i] in b.registered;
        assert !Taken(b, s2[j - |s1|]);
      }
    }
  }

  /** The guard applied to a main name and to each alias: install only a name that is taken by neither side. */
  function TryRegister(p: Progress, name: string): (s: Step)
    ensures Grows(p, s.after, s.installed)
    ensures Taken(s.after, name)
    ensures !Taken(p, name) <==> s.installed == [name]
    ensures Taken(p, name) <==> s == Step(p, [])
  {
    if !Taken(p, name) then
      Step(Progress(p.registered + {name}, p.host + {name}), [name])
    else
      Step(p, [])
  }

  /** The alias loop: each alias passes the same guard, in order. */
  function RegisterAliases(p: Progress, aliases: seq<string>): (s: Step)
    ensures Grows(p, s.after, s.installed)
    ensures Elements(s.installed) <= Elements(aliases)
    ensures forall a :: a in aliases ==> Taken(s.after, a)
    decreases |aliases|
  {
    if |aliases| == 0 then
      Step(p, [])
    else
      var first := TryRegister(p, aliases[0]);
      var rest := RegisterAliases(first.after, aliases[1..]);
      GrowsTransitive(p, first.after, rest.after, first.installed, rest.installed);
      assert Elements(first.installed + rest.installed) == Elements(first.installed) + Elements(rest.installed);
      forall a | a in aliases
        ensures Taken(rest.after, a)
      {
        if a != aliases[0] {
          assert a in aliases[1..];
        }
      }
      Step(rest.after, first.installed + rest.installed)
  }

  /** The loop over the queue: the main name first, then every alias, whether or not the main name was installed. */
  function RegisterPending(p: Progress, pending: seq<PendingCmd>): (s: Step)
    ensures Grows(p, s.after, s.installed)
    ensures Elements(s.installed) <= Names(pending)
    ensures forall x :: x in Names(pending) ==> Taken(s.after, x)
    decreases |pending|
  {
    if |pending| == 0 then
      Step(p, [])
    else
      var main := TryRegister(p, pending[0].name);
      var aliases := RegisterAliases(main.after, pending[0].aliases);
      var rest := RegisterPending(aliases.after, pending[1..]);
      GrowsTransitive(p, main.after, aliases.after, main.installed, aliases.installed);
      GrowsTransitive(p, aliases.after, rest.after, main.installed + aliases.installed, rest.installed);
      assert Elements(main.installed + aliases.installed + rest.installed)
          == Elements(main.installed) + Elements(aliases.installed) + Elements(rest.installed);
      Step(rest.after, main.installed + aliases.installed + rest.installed)
  }

  /** What a call of `registerAll` leaves behind and reports. */
  datatype FlushResult = FlushResult(
    registrar: Registrar,
    host: set<string>,
    warned: bool,
    installed: seq<string>)

  /**
   * `registerAll`: install every queued name and alias not yet known to the
   * ledger or the host, count the installations, warn once about a reload,
   * and empty the queue.
   */
  function RegisterAll(r: Registrar, host: set<string>): (res: FlushResult)
    ensures res.warned <==> r.lastRegisteredCount > 0 && !r.alreadyWarnedReload
    ensures res.registrar.alreadyWarnedReload <==> r.alreadyWarnedReload || r.lastRegisteredCount > 0
    ensures res.registrar.pending == []
    ensures res.registrar.registered == r.registered + Elements(res.installed)
    ensures res.host == host + Elements(res.installed)
    ensures NoDuplicates(res.installed)
    ensures forall x :: x in res.installed ==> x !in r.registered && x !in host
    ensures Elements(res.installed) <= Names(r.pending)
    ensures Names(r.pending) <= res.registrar.registered + res.host
    ensures res.registrar.lastRegisteredCount == r.lastRegisteredCount + |res.installed|
  {
    var warn := r.lastRegisteredCount > 0 && !r.alreadyWarnedReload;
    var done := RegisterPending(Progress(r.registered, host), r.pending);
    FlushResult(
      Registrar([], done.after.registered, r.lastRegisteredCount + |done.installed|, r.alreadyWarnedReload || warn),
      done.after.host,
      warn,
      done.installed)
  }

  lemma {:induction false} DistinctElementsCount(s: seq<string>)
    requires NoDuplicates(s)
    ensures |Elements(s)| == |s|
    decreases |s|
  {
    if |s| > 0 {
      assert Elements(s) == {s[0]} + Elements(s[1..]);
      assert s[0] !in Elements(s[1..]);
      DistinctElementsCount(s[1..]);
    }
  }

  /** The ledger starts consistent with any host. */
  lemma InitialConsistent(host: set<string>)
    ensures Consistent(Initial, host)
  {
  }

  /** A flush keeps the ledger consistent with the host: registered names are installed and counted once each. */
  lemma RegisterAllConsistent(r: Registrar, host: set<string>)
    requires Consistent(r, host)
    ensures Consistent(RegisterAll(r, host).registrar, RegisterAll(r, host).host)
  {
    var res := RegisterAll(r, host);
    DistinctElementsCount(res.installed);
    assert r.registered !! Elements(res.installed);
  }

  /** Registered names are never removed, by either operation. */
  lemma RegisteredOnlyGrows(r: Registrar, host: set<string>, name: string, permission: string, isAdmin: bool, aliases: seq<string>)
    ensures r.registered <= RegisterAll(r, host).registrar.registered
    ensures host <= RegisterAll(r, host).host
    ensures r.registered <= QueueForRegistration(r, name, permission, isAdmin, aliases).registered
  {
  }

  /** A flush whose queued names are all taken installs nothing and changes neither set. */
  lemma {:induction false} FlushOfTakenNamesIsNoop(r: Registrar, host: set<string>)
    requires Names(r.pending) <= r.registered + host
    ensures RegisterAll(r, host).installed == []
    ensures RegisterAll(r, host).registrar.registered == r.registered
    ensures RegisterAll(r, host).host == host
  {
    var res := RegisterAll(r, host);
    assert Elements(res.installed) == {};
    DistinctElementsCount(res.installed);
  }

  /** Re-queuing the same commands after a flush and flushing again installs nothing more. */
  lemma FlushTwiceInstallsOnce(r: Registrar, host: set<string>)
    ensures var first := RegisterAll(r, host);
            var second := RegisterAll(first.registrar.(pending := r.pending), first.host);
            && second.installed == []
            && second.registrar.registered == first.registrar.registered
            && second.host == first.host
  {
    var first := RegisterAll(r, host);
    FlushOfTakenNamesIsNoop(first.registrar.(pending := r.pending), first.host);
  }

  /** A call made on the ledger. */
  datatype Call =
    | Queue(name: string, permission: string, isAdmin: bool, aliases: seq<string>)
    | Flush

  /** The ledger and host after a sequence of calls, with the number of reload warnings logged. */
  datatype Trace = Trace(registrar: Registrar, host: set<string>, warnings: nat)

  function Replay(r: Registrar, host: set<string>, calls: seq<Call>): Trace
    decreases |calls|
  {
    if |calls| == 0 then Trace(r, host, 0)
    else match calls[0]
      case Queue(name, permission, isAdmin, aliases) =>
        Replay(QueueForRegistration(r, name, permission, isAdmin, aliases), host, calls[1..])
      case Flush =>
        var res := RegisterAll(r, host);
        var rest := Replay(res.registrar, res.host, calls[1..]);
        rest.(warnings := rest.warnings + if res.warned then 1 else 0)
  }

  /** Queuing installs and counts nothing, so it keeps the ledger consistent. */
  lemma QueueKeepsConsistent(r: Registrar, host: set<string>, name: string, permission: string, isAdmin: bool, aliases: seq<string>)
    requires Consistent(r, host)
    ensures Consistent(QueueForRegistration(r, name, permission, isAdmin, aliases), host)
  {
  }

  /** Over any sequence of queue and flush calls, the ledger stays consistent with the host. */
  lemma {:induction false} ReplayKeepsConsistent(r: Registrar, host: set<string>, calls: seq<Call>)
    requires Consistent(r, host)
    ensures Consistent(Replay(r, host, calls).registrar, Replay(r, host, calls).host)
    decreases |calls|
  {
    if |calls| > 0 {
      match calls[0]
      case Queue(name, permission, isAdmin, aliases) =>
        QueueKeepsConsistent(r, host, name, permission, isAdmin, aliases);
        ReplayKeepsConsistent(QueueForRegistration(r, name, permission, isAdmin, aliases), host, calls[1..]);
      case Flush =>
        var res := RegisterAll(r, host);
        RegisterAllConsistent(r, host);
        ReplayKeepsConsistent(res.registrar, res.host, calls[1..]);
    }
  }

  /** The reload warning is logged at most once per process, and never after it has been logged. */
  lemma {:induction false} WarnsAtMostOnce(r: Registrar, host: set<string>, calls: seq<Call>)
    ensures Replay(r, host, calls).warnings <= if r.alreadyWarnedReload then 0 else 1
    decreases |calls|
  {
    if |calls| > 0 {
      match calls[0]
      case Queue(name, permission, isAdmin, aliases) =>
        WarnsAtMostOnce(QueueForRegistration(r, name, permission, isAdmin, aliases), host, calls[1..]);
      case Flush =>
        var res := RegisterAll(r, host);
        WarnsAtMostOnce(res.registrar, res.host, calls[1..]);
    }
  }
}

=== FILE: seqs.dfy ===
/** Searching a sequence for its first element with a property (Kotlin's `firstOrNull` and `find`). */
module Seqs {
  import opened Wrappers

  /** The index of the first element satisfying `p`, or `None` when there is none. */
  function FirstWhere<T>(s: seq<T>, p: T -> bool): (r: Option<nat>)
    ensures r.Some? ==> r.value < |s| && p(s[r.value])
    ensures r.Some? ==> forall j :: 0 <= j < r.value ==> !p(s[j])
    ensures r.None? <==> forall j :: 0 <= j < |s| ==> !p(s[j])
    decreases |s|
  {
    if |s| == 0 then None
    else if p(s[0]) then Some(0)
    else
      match FirstWhere(s[1..], p)
      case None => None
      case Some(k) => Some(k + 1)
  }

  /** When the search finds nothing, no element of the sequence has the property. */
  lemma NotFound<T>(s: seq<T>, p: T -> bool, x: T)
    requires FirstWhere(s, p).None? && x in s
    ensures !p(x)
  {
  }
}

=== FILE: text.dfy ===
/**
 * String helpers with the meaning Kotlin gives them, restricted to the parts
 * the command system and the pet catalogue use: lower-casing, comparison and
 * prefix tests ignoring case, and blankness.
 *
 * Case folding is ASCII only: `'A'..'Z'` map to `'a'..'z'` and every other
 * character is left alone.
 */
module Text {

  /** Kotlin `Char.isWhitespace` on the JVM: Java's whitespace controls plus every space, line or paragraph separator. */
  predicate IsWhitespace(c: char) {
    || c == ' ' || c == '\t' || c == '\n' || c == '\U{B}' || c == '\U{C}' || c == '\r'
    || ('\U{1C}' <= c <= '\U{1F}')
    || c == '\U{A0}' || c == '\U{1680}'
    || ('\U{2000}' <= c <= '\U{200A}')
    || c == '\U{2028}' || c == '\U{2029}' || c == '\U{202F}' || c == '\U{205F}' || c == '\U{3000}'
  }

  /** Kotlin `isBlank`: empty, or whitespace only. */
  predicate IsBlank(s: string) {
    forall i :: 0 <= i < |s| ==> IsWhitespace(s[i])
  }

  predicate IsUpperAscii(c: char) {
    'A' <= c <= 'Z'
  }

  function LowerChar(c: char): char {
    if IsUpperAscii(c) then (c as int + 32) as char else c
  }

  /** `lowercase()`, folding ASCII letters only. */
  function Lower(s: string): (r: string)
    ensures |r| == |s|
  {
    if |s| == 0 then [] else [LowerChar(s[0])] + Lower(s[1..])
  }

  /** Equality ignoring case: both sides lower-case to the same string. */
  predicate EqualsIgnoreCase(a: string, b: string) {
    Lower(a) == Lower(b)
  }

  /** `s.startsWith(prefix, ignoreCase = true)`: false when the prefix is longer than `s`. */
  predicate StartsWithIgnoreCase(s: string, prefix: string) {
    |prefix| <= |s| && EqualsIgnoreCase(s[..|prefix|], prefix)
  }

  /** Lower-casing works character by character. */
  lemma {:induction false} LowerAt(s: string, i: int)
    requires 0 <= i < |s|
    ensures Lower(s)[i] == LowerChar(s[i])
    decreases |s|
  {
    if i > 0 {
      LowerAt(s[1..], i - 1);
    }
  }
}

=== FILE: wrappers.dfy ===
/** Optional values and results with an error, used where the source returns null or throws. */
module Wrappers {

  /** A value that may be absent; `None` plays the part of Kotlin's `null`. */
  datatype Option<+T> = None | Some(value: T) {

    /** The wrapped value, or `default` when there is none (Kotlin's `?:`). */
    function GetOr(default: T): T {
      match this
      case Some(v) => v
      case None => default
    }
  }

  /** Either a value or the error that stopped its computation. */
  datatype Result<+R, +E> = Success(value: R) | Failure(error: E)
}
